=== FILE: README.md ===
# pyvivado project orchestration, modelled in Dafny

pyvivado drives the Xilinx Vivado toolchain from Python. This model covers
the part of it that decides and writes things, with the filesystem, the
source hash, the toolchain and the task store made abstract:

- **Opening a project** (`VivadoProject.__init__`, module `Project`). What
  is on disk is an abstract `ProjectDir`: no directory, or a directory with
  or without `TheProject.xpr`, with or without persisted `{part, board}` and
  a stored source hash. From that and a request (part, board, `overwrite_ok`),
  `Decide` returns one of:
  - a corrupt project, missing parameters, a parameter conflict or a stale
    hash;
  - Reuse;
  - Fresh or Rebuild.

  `Open` then carries the decision out. A rebuild removes the directory, and
  with it the records of the tasks run there. Then `Open` writes the
  parameters and the hash, builds the create command, and submits and runs
  one create task.
- **TCL command text** (`make_create_vivado_project_command`,
  `make_create_vivado_simset_command`, module `Commands`). The builders
  resolve board and part from the board table, refuse an existing project,
  and brace every argument. Module `Tcl` is a small reference reader of TCL
  words (braces, spaces and `;`). It is the builders' partner: reading a
  built command back yields exactly the arguments, in order.
- **The utilization hierarchy** (`get_utilization`, module `Utilization`).
  - Report lines are split on `|` and stripped as Python does.
  - Nothing before the `Instance` header counts.
  - The indentation level of each row drives a stack of open ancestors, kept
    as a functional zipper.
  - On a well-formed outline, the loop rebuilds a tree whose preorder is
    exactly the rows. It fails where Python raises.
- **Report file names** (`utilization_file`, `power_file`).
- **Input rotation of a file-driven testbench** (`update_input_data`,
  `get_input_filename`, `get_output_filename`, module `FileTestBench`).
  - The filesystem is a map from component paths to files and directories.
  - An update creates the test directory, removes `old_input.data`, renames
    `input.data` onto it (with everything under it), writes the new input,
    and reports whether the bytes changed.
- **The task collection** (module `Tasks`). Its implementation is not part
  of this model, so this is a specification model. It states what the
  callers in `vivado_project.py` and the assertions in `qa_task.py` rely on:
  `drop`, `create`, `count`, `find_by_id`, `run`, `wait`, `run_and_wait`
  and `get_errors`.

Details of the code that the model keeps:

- `update_input_data` writes the new `input.data` directly. There is no
  staging file.
- The open checks run in this order:
  1. the project file;
  2. parameters (conflict, then missing);
  3. the hash, only for an existing directory.
- The constructor writes the parameters and the hash before it builds the
  create command. So a command refused for a known board with a part leaves a
  directory that the next open reports as corrupt (`Project.KnownBoardWithPart`).
- An omitted part or board takes the persisted value before the comparison
  is made. So only a supplied, different value conflicts.

## Model

| member | source | states |
|---|---|---|
| Project.Decide | vivado_project.py:36-69 | The full decision table, in the constructor's precedence. A missing directory is Fresh with the requested parameters. A directory without `TheProject.xpr` is corrupt. No persisted parameters is an error. Resolved parameters that differ from the persisted ones are a conflict without `overwrite_ok` and a Rebuild with it. Matching parameters with an unchanged hash Reuse; with a changed hash they Rebuild under `overwrite_ok` and are stale without it. |
| Project.Resolve | vivado_project.py:42-51 | A supplied part or board is kept. An omitted one takes the persisted value when there is one, and stays omitted otherwise. |
| Project.Open | vivado_project.py:70-78 | A decision error changes nothing. Reuse changes nothing. Fresh or Rebuild leaves a directory holding the new parameters and the current hash. A Rebuild removes exactly the task records of the project's `vivado` directory, since that directory is deleted and a collection is opened on it afresh; no other record is touched or removed. Then exactly one task is added under the next id: it is running in the `vivado` directory, with the create description and the command the builder makes for those parameters. A Fresh open therefore raises the count by one. A refused command is reported after the directory is written, with the same records removed and no task added. "Project exists" never occurs. |
| Project.CorruptBeforeAnythingElse | vivado_project.py:36-39 | A directory without its project file fails as corrupt, whatever the parameters, the hash or the request. |
| Project.MissingParamsWhateverOverwrite | vivado_project.py:59-61 | An existing project without persisted parameters fails with `overwrite_ok` false and with it true. |
| Project.ConflictIffSuppliedDiffers | vivado_project.py:43-56 | The resolved request differs from the persisted parameters exactly when a supplied part or board differs. Omitting both never conflicts. |
| Project.HashOnlyForExisting | vivado_project.py:64-65 | For a missing directory the decision does not depend on the hash. |
| Project.LaunchIffFreshOrRebuild | vivado_project.py:70-78 | A new task id appears iff the decision is Fresh or Rebuild and the command is built, and then it is the one next id. In that case the task store changes. The world changes only then, or when the command is refused. |
| Project.ReopenReuses | vivado_project.py:52-69 | Once the create task has written the project file, opening again with the same request, or with part and board omitted, decides Reuse with the same parameters. |
| Project.OpenWhileCreating | vivado_project.py:36-39 | Until the create task writes the project file, any later open fails as corrupt. |
| Project.KnownBoardWithPart | vivado_project.py:105-109 | A new project whose board is in the board table and which is also given a part is refused. By then its directory holds the parameters and the hash, and no task was added. |
| Project.ReportFilesDistinct | vivado_project.py:163-177 | The synthesis and implementation reports are different files. Utilization and power reports never coincide. Each is directly inside the project directory. |
| Commands.MakeCreateProjectCommand | vivado_project.py:85-130 | An existing `TheProject.xpr` is refused. Otherwise the command is refused iff the board is in the board table and a part is given. A command that is built reads back as eight words: the procedure, the directory, the design files in order, the simulation files in order, the resolved part, the resolved board, one list element per IP, and the top module. A board in the table supplies its Xilinx name and part. An omitted part or board becomes the empty word. |
| Commands.MakeCreateSimsetCommand | vivado_project.py:132-143 | The simset command reads back as the procedure, the directory, the test name and the simulation files in order. |
| Commands.ReadCreateProjectText | vivado_project.py:118-129 | Reading the create-project text back gives exactly the arguments placed in it. |
| Commands.ReadCreateSimsetText | vivado_project.py:136-142 | Reading the create-simset text back gives exactly the arguments placed in it. |
| Commands.ListField | vivado_project.py:121-124 | A space-joined list of braced file names, padded as the template pads it, has balanced braces and reads back as the file list. |
| Commands.IpsField | vivado_project.py:89-99 | The IP argument has balanced braces and reads back as one list element per IP, in order, each holding what the builder wrote between that IP's braces. |
| Commands.IpWords | vivado_project.py:90-97 | When the name and module are bare words (not empty, no opening brace or double quote, no white space, `;` or backslash), an IP's element reads back as four words: its name, the empty version, its module and its property list. |
| Commands.PropertyWords | vivado_project.py:95-96 | A property whose key and value are bare words reads back as the key and the value. |
| Commands.PropertiesRead | vivado_project.py:95-97 | The property list of an IP reads back as one element per property, in order, and each element as that property's key and value. |
| Commands.IpsRead | vivado_project.py:89-99 | The IP argument read all the way down: one element per IP, in order; each as the IP's name, empty version, module and property list; each property list as one element per property; each property as its key and value. |
| Utilization.SplitJoin | vivado_project.py:202 | Splitting on `|` undoes joining cells that hold no `|`. |
| Utilization.Split | vivado_project.py:207 | The parts join back to the line and none contains the separator. |
| Utilization.HierLevel | vivado_project.py:209 | The level `k` of a cell with `n` leading white-space characters satisfies `2k+1 <= n <= 2k+2`, by floor division. An unindented cell is at level -1. |
| Utilization.NothingBeforeHeader | vivado_project.py:199-205 | Lines before the first header do not affect the rows read. |
| Utilization.NoHeaderNoRows | vivado_project.py:199-205 | A report without a header yields no rows. |
| Utilization.Step | vivado_project.py:217-223 | The first row must be at level 0. A later row at level 0 starts a new stack. A row at level `k` with `1 <= k <=` the stack height closes the entries above `k` into their parents and is pushed. A level above the height fails. The bottom entry is kept unless a new root starts. |
| Utilization.FlatTruncate | vivado_project.py:223 | Closing the stack entries above `k` into their parents does not change the rows the stack stands for. |
| Utilization.BuildHierarchy | vivado_project.py:197-224 | No rows fails. A first row not at level 0 fails. On an outline, the loop succeeds with a tree whose preorder is exactly the rows. A row two or more levels deeper than its predecessor, after an outline, makes it fail. On success the root is the last row at level 0. |
| Utilization.GetUtilization | vivado_project.py:197-224 | A report without a header fails. A report whose rows form an outline yields a tree whose preorder is those rows. |
| Utilization.FlatIsNested | vivado_project.py:206-223 | The preorder of any hierarchy is an outline: each row after the first is at most one level deeper than its predecessor. |
| FileTestBench.UpdateInputData | filetestbench_project.py:80-98 | The update succeeds iff the test directory is a directory, or is missing with its parent a directory, and `old_input.data` is not a directory. Otherwise it fails with no parent directory, is-a-directory, or not-a-directory. |
| FileTestBench.UpdateContents | filetestbench_project.py:88-97 | Afterwards `input.data` holds the new bytes. `old_input.data` holds exactly the prior `input.data`, or is gone when there was none. The result is "changed" iff the prior input was not a file with the same bytes, so it is always true on a first call. |
| FileTestBench.UpdateFrame | filetestbench_project.py:84-93 | Nothing outside the test directory entry, `input.data` and `old_input.data` changes. |
| FileTestBench.SameDataTwiceUnchanged | filetestbench_project.py:94-95 | When `input.data` was not a directory, writing the same bytes twice, the second call reports no change. |
| FileTestBench.DifferentDataChanged | filetestbench_project.py:94-95 | When `input.data` was not a directory, writing different bytes after an update reports a change. |
| FileTestBench.UpdateSucceedsAgain | filetestbench_project.py:80-98 | When `input.data` was not a directory, after a successful update another update of the same test succeeds with any bytes. |
| FileTestBench.UpdateKeepsWellFormed | filetestbench_project.py:84-93 | An update keeps every entry's parent a directory. |
| FileTestBench.RewriteScenario | filetestbench_project.py:80-98 | Updating a new test with `AAAA`, `BBBB`, `BBBB` reports changed, changed, unchanged. |
| FileTestBench.Rename | filetestbench_project.py:92 | Renaming moves the source and everything under it to the destination. Entries elsewhere are untouched. Nothing is left under the source. |
| FileTestBench.Rotate | filetestbench_project.py:89-92 | After removing `old_input.data` and renaming `input.data` onto it, `old_input.data` exists iff `input.data` did, and holds its entry. `input.data` is gone. Other entries are unchanged. |
| FileTestBench.FilenamesDistinct | filetestbench_project.py:75-102 | The input, previous-input and output files of a test are distinct and lie in the test's directory. Output files are equal iff their simulation types are. Different tests get different input and output files, for test names that are single path components. |
| Tasks.Create | qa_task.py:22-25 | A created task gets a fresh id. It is stored pending, with the given parent directory, and is counted. Other records are unchanged. |
| Tasks.Drop | qa_task.py:21 | After a drop the collection counts zero and finds nothing. |
| Tasks.DropDirectory | vivado_project.py:70-73 | Once a directory is removed, the records of the tasks run there are gone, every other record is kept unchanged, and ids are not reused. |
| Tasks.FindById | qa_task.py:24 | A lookup finds exactly the stored record, and fails as not found otherwise. |
| Tasks.Count | qa_task.py:23 | The count is zero iff there are no records. |
| Tasks.Run | vivado_project.py:161 | Only a pending task starts running. |
| Tasks.Wait | vivado_project.py:195 | Waiting succeeds iff the task has been started. A running task ends finished, and its status is Completed iff it has no errors; a finished task is returned unchanged. Other records are untouched. |
| Tasks.RunAndWait | qa_task.py:42 | Only a pending task is run and waited for. A task that was already started is refused. The task ends finished, and its status is Completed iff it has no errors. Other records are untouched. |
| Tasks.Outcome | qa_task.py:42-44 | A process completes iff it exited with code 0 and logged no error line. A timeout kills it. Any other end carries at least one error. |
| Tasks.GetErrors | qa_task.py:43 | `get_errors` returns the recorded errors of an existing task. |
| Tasks.ErrorLines | qa_task.py:43-44 | The errors are exactly the log lines marked as errors. |
| Tasks.CreateAfterDrop | qa_task.py:20-25 | After a drop, one create leaves a count of 1. The new id is found, pending, with the given parent directory. |
| Tasks.FailedTaskReportsErrors | qa_task.py:32-44 | A task created after a drop is counted and found before it runs. Once run and waited for, a process that did not end cleanly reports a non-empty error list. |
| Tasks.RunThenWait | vivado_project.py:194-195 | Running a task and later waiting for it, as report generation followed by `wait` does, ends in the same store as `run_and_wait` alone. |
| Tasks.RunOnce | vivado_project.py:194-195 | A started task cannot be run again or run and waited for. Waiting again for a task that has ended changes nothing, however its process is said to end. |

## Left out

- `redis_connection.py` is not part of this model. It is a network client for a hardware monitor.
- `get_power` is left out because it parses floating-point cells (vivado_project.py:179-189).
- The fallback of `get_utilization` that spawns report generation when the report is missing is left out. It is process I/O.
- The category columns of the utilization table and their `int` parsing are left out. The model keeps a row's level, instance and module.
- Reading the report file is left out: the report comes in as its list of lines.
- `synthesize`, `implement`, `generate_reports` and `run_simulation` are left out. They only format a command and hand it to a task.
- Process supervision is left out: spawning, polling, timeouts and log capture. How a process ends (`ProcessEnd`) and which log lines are errors (`isError`) are inputs.
- The hash and parameter helpers are not part of this model. The persisted parameters, the stored hash and the current hash are abstract values, and "hash changed" means the stored hash differs from the current one.
- `write_input_file` is not part of this model. The serialised bytes are an input.
- `filecmp.cmp` is modelled as byte equality of two regular files. Its default shallow mode can call files equal from their stat signatures alone.
- `FileTestBenchProject.create` and `__init__` are left out. `create` only builds the base project's parameters and hands them on. `__init__` does the same when given an interface. Without one it rehydrates the interface from a class registry, but that branch reads `interface.module_register` while `interface` is `None`, so it cannot work.
- `make_parent_params` is left out. It only builds generator objects.
- Project.Open: `launch_create_task` calls `VivadoTask.create` without a parent directory, unlike the other call sites. The task module is not part of this model, so the create task's directory is taken to be the collection's directory, the project's `vivado` directory.
- Crash atomicity is left out: every operation is one atomic step. A crash between `rmtree` and `mkdir`, or inside the rotation, is not modelled.
- Concurrency and logging are left out.
- Python `assert` statements are modelled as errors (`PartGivenForKnownBoard`, `FirstRowNotRoot`). Running Python with `-O` would skip them.
- Commands.MakeCreateProjectCommand: read-back is stated only for arguments whose braces balance. The builders do no escaping, so other arguments change the command's structure.
- Commands.IpWords: an IP's name and module, and a property's key and value, are read back as words only when they are bare words. A bare word is not empty, does not open with a brace or a double quote, and holds no space, tab, newline, carriage return, vertical tab, form feed, `;` or backslash. The builder writes these texts without braces, and TCL reads an IP's element and each property as lists. So white space splits such a text, a leading quote pair is stripped, and a backslash starts a substitution. None of that is modelled.
- Commands.MakeCreateSimsetCommand: read-back is stated only for arguments whose braces balance, for the same reason.
- Tcl.Balanced: the reader gives backslashes no meaning, but TCL does. Inside braces, a backslash before a brace stops that brace from counting, and a backslash before a newline is replaced by a space. So `Balanced` holds of `C:\dir\` and of `a\{}`, and the model reads such an argument back as built, while TCL would pair the braces differently. The difference also runs the other way: TCL accepts `a\{` inside braces, but `Balanced` does not hold of it (`Tcl.BackslashIgnored`). The read-back lemmas therefore promise nothing for arguments holding a backslash before a brace, a newline or the end of the text. Double quotes and `$`/`[]` substitution are not modelled. The command's arguments are braced, so the command itself substitutes nothing. The IP and property texts inside them are read again as TCL lists; there quotes, backslashes and white space other than a space do matter, which is why the bare-word condition excludes them.
- Paths are sequences of components. `os.path.join` with an absolute later component, `..` and symbolic links are not modelled.
- FileTestBench.UpdateInputData: a test name is taken to be one path component: not empty, not `.` or `..`, and without `/`. `os.path.join` would give other names other meanings: `""` and `"."` name the project directory itself, so no test directory is made, and `"a/"` names the same files as `"a"`. Under such names the model's new directory entry and FileTestBench.FilenamesDistinct's "different tests get different files" do not match Python.
- Tasks.Wait: waiting for a task that was never run is refused as not started. The task module is not part of this model, and every caller waits only after `run`.
- Utilization.BuildHierarchy: for rows that are not an outline, the result is only partly specified. The stated parts are the two first-row errors, the "too deep" failure, and the root on success.
- Tasks: a specification model of the collection's behaviour as its callers and tests use it. The storage layer is not part of this model.

=== FILE: commands.dfy ===
/** The TCL command builders of the project wrapper
    (`VivadoProject.make_create_vivado_project_command` and
    `VivadoProject.make_create_vivado_simset_command`): plain string formatting
    that wraps every argument in braces so that the toolchain's TCL interpreter
    receives it as one word. */
module Commands {
  import opened Wrappers
  import opened Tcl

  /** An entry of the board table: the toolchain's name for the board and the
      part mounted on it. */
  datatype BoardInfo = BoardInfo(xilinxName: string, part: string)

  /** An IP core to add to the project: its name, its (key, value) properties
      and the module name it is instantiated as. */
  datatype IpSpec = IpSpec(name: string, properties: seq<(string, string)>, moduleName: string)

  datatype CommandError =
    | ProjectExists           // `TheProject.xpr` is already in the directory
    | PartGivenForKnownBoard  // the `assert(part is None)` for a board of the table

  const CreateProjectProc := "::pyvivado::create_vivado_project"
  const CreateSimsetProc := "::pyvivado::create_simset"
  /** Every IP is requested with an empty version. */
  const IpVersion := ""

  /** `' '.join(parts)` */
  function JoinSpace(parts: seq<string>): string
    decreases |parts|
  {
    if parts == [] then ""
    else if |parts| == 1 then parts[0]
    else parts[0] + " " + JoinSpace(parts[1..])
  }

  /** `['{' + w + '}' for w in ws]` */
  function BraceEach(ws: seq<string>): seq<string>
    decreases |ws|
  {
    if ws == [] then [] else ["{" + ws[0] + "}"] + BraceEach(ws[1..])
  }

  /** A file list as the builders write it: every name in braces, space-joined,
      in input order. */
  function FileList(files: seq<string>): string {
    JoinSpace(BraceEach(files))
  }

  /** `'{ k v }'` for one IP property. */
  function PropertyText(p: (string, string)): string {
    "{ " + p.0 + " " + p.1 + " }"
  }

  function PropertyTexts(ps: seq<(string, string)>): seq<string>
    decreases |ps|
  {
    if ps == [] then [] else [PropertyText(ps[0])] + PropertyTexts(ps[1..])
  }

  /** One IP as the builder writes it: `name {version} module { properties }`. */
  function IpText(ip: IpSpec): string {
    ip.name + " {" + IpVersion + "} " + ip.moduleName + " { " + JoinSpace(PropertyTexts(ip.properties)) + " }"
  }

  /** The body the TCL reader sees for one IP entry `{ ip }`. */
  function IpBody(ip: IpSpec): string {
    " " + IpText(ip) + " "
  }

  function IpBodies(ips: seq<IpSpec>): seq<string>
    decreases |ips|
  {
    if ips == [] then [] else [IpBody(ips[0])] + IpBodies(ips[1..])
  }

  function IpEntries(ips: seq<IpSpec>): seq<string>
    decreases |ips|
  {
    if ips == [] then [] else ["{ " + IpText(ips[0]) + " }"] + IpEntries(ips[1..])
  }

  /** The `ips` argument: every IP as `{ ip }`, space-joined. */
  function IpsText(ips: seq<IpSpec>): string {
    JoinSpace(IpEntries(ips))
  }

  predicate KnownBoard(board: Option<string>, boards: map<string, BoardInfo>) {
    board.Some? && board.value in boards
  }

  /** The part the created project targets: the board table's part for a known
      board, otherwise the `part` argument, an absent one as the empty string. */
  function TargetPart(part: Option<string>, board: Option<string>, boards: map<string, BoardInfo>): string {
    if KnownBoard(board, boards) then boards[board.value].part else part.GetOr("")
  }

  /** The board the created project targets: the board table's toolchain name
      for a known board, otherwise the `board` argument, an absent one as the
      empty string. */
  function TargetBoard(board: Option<string>, boards: map<string, BoardInfo>): string {
    if KnownBoard(board, boards) then boards[board.value].xilinxName else board.GetOr("")
  }

  /** A braced argument, the space after it, and the rest of the command. */
  function Field(w: string, rest: string): string {
    "{" + w + "}" + " " + rest
  }

  /** What a list argument `{ list }` holds between its braces. */
  function Padded(s: string): string {
    " " + s + " "
  }

  /** The text of the create-project command, with every argument in place:
      `proc {directory} { design }  { simulation } {part} {board} {ips} {top}`,
      written argument by argument (two spaces before the simulation list, as
      the builder's format string has them). */
  function CreateProjectText(directory: string, designFiles: seq<string>, simulationFiles: seq<string>,
                             part: string, board: string, ips: seq<IpSpec>, topModule: string): string
  {
    CreateProjectProc + " " +
      Field(directory,
      Field(Padded(FileList(designFiles)), " " +
      Field(Padded(FileList(simulationFiles)),
      Field(part,
      Field(board,
      Field(IpsText(ips),
      "{" + topModule + "}"))))))
  }

  /** The arguments of a create-project command as the TCL interpreter receives them. */
  datatype CreateArgs = CreateArgs(directory: string, designFiles: seq<string>, simulationFiles: seq<string>,
                                   part: string, board: string, ips: seq<string>, topModule: string)

  /** Reads a create-project command back into its arguments: the command's
      words, and the words of the list-valued ones. */
  function ReadCreateProject(cmd: string): Option<CreateArgs> {
    match Words(cmd)
    case None => None
    case Some(ws) =>
      if |ws| != 8 || ws[0] != CreateProjectProc then None
      else
        match (Words(ws[2]), Words(ws[3]), Words(ws[6]))
        case (Some(design), Some(sim), Some(ipWords)) =>
          Some(CreateArgs(ws[1], design, sim, ws[4], ws[5], ipWords, ws[7]))
        case _ => None
  }

  predicate AllBalanced(ws: seq<string>) {
    forall i :: 0 <= i < |ws| ==> Balanced(ws[i])
  }

  /** Every piece of text an IP contributes has matching braces. */
  predicate IpBalanced(ip: IpSpec) {
    && Balanced(ip.name)
    && Balanced(ip.moduleName)
    && forall i :: 0 <= i < |ip.properties| ==> Balanced(ip.properties[i].0) && Balanced(ip.properties[i].1)
  }

  /** The board table's names and parts have matching braces. */
  predicate BoardsBalanced(boards: map<string, BoardInfo>) {
    forall b :: b in boards ==> Balanced(boards[b].xilinxName) && Balanced(boards[b].part)
  }

  /** The caller's arguments can each stand inside one pair of braces. */
  predicate CreateArgsBalanced(directory: string, designFiles: seq<string>, simulationFiles: seq<string>,
                               ips: seq<IpSpec>, part: Option<string>, board: Option<string>,
                               topModule: string, boards: map<string, BoardInfo>)
  {
    && Balanced(directory)
    && AllBalanced(designFiles)
    && AllBalanced(simulationFiles)
    && (forall i :: 0 <= i < |ips| ==> IpBalanced(ips[i]))
    && (part.Some? ==> Balanced(part.value))
    && (board.Some? ==> Balanced(board.value))
    && Balanced(topModule)
    && BoardsBalanced(boards)
  }

  /** `make_create_vivado_project_command`. `xprExists` says whether
      `TheProject.xpr` is already in `directory`. It refuses an existing project,
      refuses a `part` for a board of the table, and otherwise writes a command
      from which the interpreter reads back exactly the directory, the design
      and simulation files in order, the resolved part and board, one list
      element per IP and the top module. */
  function MakeCreateProjectCommand(directory: string, designFiles: seq<string>, simulationFiles: seq<string>,
                                    ips: seq<IpSpec>, part: Option<string>, board: Option<string>,
                                    topModule: string, xprExists: bool, boards: map<string, BoardInfo>)
    : (r: Result<string, CommandError>)
    ensures xprExists ==> r == Failure(ProjectExists)
    ensures !xprExists ==> (r.Failure? <==> KnownBoard(board, boards) && part.Some?)
    ensures !xprExists && r.Failure? ==> r.error == PartGivenForKnownBoard
    ensures r.Success? && CreateArgsBalanced(directory, designFiles, simulationFiles, ips, part, board, topModule, boards) ==>
      ReadCreateProject(r.value) == Some(CreateArgs(directory, designFiles, simulationFiles,
                                                    TargetPart(part, board, boards), TargetBoard(board, boards),
                                                    IpBodies(ips), topModule))
  {
    if xprExists then Failure(ProjectExists)
    else
      var boardName: Option<string>, partName: Option<string> :=
        if board.Some? && board.value in boards then Some(boards[board.value].xilinxName) else board,
        if board.Some? && board.value in boards then Some(boards[board.value].part) else part;
      if board.Some? && board.value in boards && part.Some? then Failure(PartGivenForKnownBoard)
      else
        var text := CreateProjectText(directory, designFiles, simulationFiles,
                                      partName.GetOr(""), boardName.GetOr(""), ips, topModule);
        // Both branches give the same text; the test only brings the read-back
        // lemma's precondition into scope for the ensures.
        if CreateArgsBalanced(directory, designFiles, simulationFiles, ips, part, board, topModule, boards) then
          ReadCreateProjectText(directory, designFiles, simulationFiles, partName.GetOr(""), boardName.GetOr(""), ips, topModule);
          Success(text)
        else
          Success(text)
  }

  /** The text of the create-simset command:
      `proc {directory} {test} { simulation };`. */
  function CreateSimsetText(directory: string, testName: string, simulationFiles: seq<string>): string {
    CreateSimsetProc + " " +
      Field(directory,
      Field(testName,
      "{" + Padded(FileList(simulationFiles)) + "}" + ";"))
  }

  datatype SimsetArgs = SimsetArgs(directory: string, testName: string, simulationFiles: seq<string>)

  /** Reads a create-simset command back into its arguments. */
  function ReadCreateSimset(cmd: string): Option<SimsetArgs> {
    match Words(cmd)
    case None => None
    case Some(ws) =>
      if |ws| != 4 || ws[0] != CreateSimsetProc then None
      else
        match Words(ws[3])
        case Some(sim) => Some(SimsetArgs(ws[1], ws[2], sim))
        case None => None
  }

  /** `make_create_vivado_simset_command`: the interpreter reads back exactly
      the directory, the test name and the simulation files in order. */
  function MakeCreateSimsetCommand(directory: string, testName: string, simulationFiles: seq<string>): (cmd: string)
    ensures Balanced(directory) && Balanced(testName) && AllBalanced(simulationFiles) ==>
      ReadCreateSimset(cmd) == Some(SimsetArgs(directory, testName, simulationFiles))
  {
    // Both branches give the same text; the test only brings the read-back
    // lemma's precondition into scope for the ensures.
    if Balanced(directory) && Balanced(testName) && AllBalanced(simulationFiles) then
      ReadCreateSimsetText(directory, testName, simulationFiles);
      CreateSimsetText(directory, testName, simulationFiles)
    else
      CreateSimsetText(directory, testName, simulationFiles)
  }

  // ---------------------------------------------------------------------------
  // Proofs that the interpreter reads the arguments back

  lemma FieldThen(w: string, rest: string, tail: seq<string>)
    requires Balanced(w) && Words(rest) == Some(tail)
    ensures Words(Field(w, rest)) == Some([w] + tail)
  {
    WordsBraced(w, " " + rest);
    WordsSpace(rest);
    assert Field(w, rest) == "{" + w + "}" + (" " + rest);
  }

  lemma LastField(w: string)
    requires Balanced(w)
    ensures Words("{" + w + "}") == Some([w])
  {
    WordsBraced(w, "");
    assert "{" + w + "}" + "" == "{" + w + "}";
    assert Words("") == Some([]);
    assert [w] + [] == [w];
  }

  /** A space-joined list of braced words reads back as those words. */
  lemma {:induction false} WordsBraceList(ws: seq<string>, rest: string)
    requires AllBalanced(ws) && AtWordEnd(rest)
    ensures Words(JoinSpace(BraceEach(ws)) + rest) == Append(ws, Words(rest))
    decreases |ws|
  {
    if ws == [] {
      assert JoinSpace(BraceEach(ws)) + rest == rest;
      if Words(rest).Some? {
        assert ws + Words(rest).value == Words(rest).value;
      }
    } else if |ws| == 1 {
      assert BraceEach(ws) == ["{" + ws[0] + "}"];
      assert Balanced(ws[0]);
      WordsBraced(ws[0], rest);
      assert [ws[0]] == ws;
    } else {
      var tail := JoinSpace(BraceEach(ws[1..]));
      assert BraceEach(ws)[1..] == BraceEach(ws[1..]);
      assert JoinSpace(BraceEach(ws)) + rest == "{" + ws[0] + "}" + (" " + (tail + rest));
      assert Balanced(ws[0]);
      WordsBraced(ws[0], " " + (tail + rest));
      WordsSpace(tail + rest);
      assert AllBalanced(ws[1..]) by {
        forall i | 0 <= i < |ws[1..]| ensures Balanced(ws[1..][i]) {
          assert ws[1..][i] == ws[i + 1];
        }
      }
      WordsBraceList(ws[1..], rest);
      if Words(rest).Some? {
        assert [ws[0]] + (ws[1..] + Words(rest).value) == ws + Words(rest).value;
      }
    }
  }

  /** A space-joined list of braced balanced words is balanced. */
  lemma {:induction false} BraceListBalanced(ws: seq<string>)
    requires AllBalanced(ws)
    ensures Balanced(JoinSpace(BraceEach(ws)))
    decreases |ws|
  {
    if ws == [] {
    } else {
      assert Balanced(ws[0]);
      BalancedBrace(ws[0]);
      if |ws| > 1 {
        assert BraceEach(ws)[1..] == BraceEach(ws[1..]);
        assert AllBalanced(ws[1..]) by {
          forall i | 0 <= i < |ws[1..]| ensures Balanced(ws[1..][i]) {
            assert ws[1..][i] == ws[i + 1];
          }
        }
        BraceListBalanced(ws[1..]);
        BalancedBraceFree(" ");
        BalancedConcat("{" + ws[0] + "}", " ");
        BalancedConcat("{" + ws[0] + "}" + " ", JoinSpace(BraceEach(ws[1..])));
      }
    }
  }

  lemma BalancedPadded(s: string)
    requires Balanced(s)
    ensures Balanced(Padded(s))
  {
    BalancedBraceFree(" ");
    BalancedConcat(" ", s);
    BalancedConcat(" " + s, " ");
  }

  /** A list argument `{ list }`: its body is balanced and reads back as the list. */
  lemma ListField(ws: seq<string>)
    requires AllBalanced(ws)
    ensures Balanced(Padded(FileList(ws)))
    ensures Words(Padded(FileList(ws))) == Some(ws)
  {
    BraceListBalanced(ws);
    BalancedPadded(FileList(ws));
    WordsBraceList(ws, " ");
    WordsSpace("");
    assert Words("") == Some([]);
    WordsSpace(FileList(ws) + " ");
    assert Padded(FileList(ws)) == " " + (FileList(ws) + " ");
    assert ws + [] == ws;
  }

  lemma {:induction false} PropertiesBalanced(ps: seq<(string, string)>)
    requires forall i :: 0 <= i < |ps| ==> Balanced(ps[i].0) && Balanced(ps[i].1)
    ensures Balanced(JoinSpace(PropertyTexts(ps)))
    decreases |ps|
  {
    BalancedBraceFree(" ");
    if ps != [] {
      var t := PropertyText(ps[0]);
      assert Balanced(t) by {
        assert Balanced(ps[0].0) && Balanced(ps[0].1);
        BalancedConcat(" ", ps[0].0);
        BalancedConcat(" " + ps[0].0, " ");
        BalancedConcat(" " + ps[0].0 + " ", ps[0].1);
        BalancedConcat(" " + ps[0].0 + " " + ps[0].1, " ");
        BalancedBrace(" " + ps[0].0 + " " + ps[0].1 + " ");
        assert t == "{" + (" " + ps[0].0 + " " + ps[0].1 + " ") + "}";
      }
      if |ps| > 1 {
        assert PropertyTexts(ps)[1..] == PropertyTexts(ps[1..]);
        PropertiesBalanced(ps[1..]);
        BalancedConcat(t, " ");
        BalancedConcat(t + " ", JoinSpace(PropertyTexts(ps[1..])));
      }
    }
  }

  lemma BalancedJoin3(a: string, b: string, c: string)
    requires Balanced(a) && Balanced(b) && Balanced(c)
    ensures Balanced(a + b + c)
  {
    BalancedConcat(a, b);
    BalancedConcat(a + b, c);
  }

  /** The ` {version} ` piece of an IP. */
  lemma VersionBalanced()
    ensures Balanced(" {" + IpVersion + "} ")
  {
    assert Balanced(IpVersion);
    BalancedBrace(IpVersion);
    BalancedBraceFree(" ");
    BalancedJoin3(" ", "{" + IpVersion + "}", " ");
    assert " {" + IpVersion + "} " == " " + ("{" + IpVersion + "}") + " ";
  }

  /** The ` { properties }` piece of an IP. */
  lemma PropertiesFieldBalanced(props: string)
    requires Balanced(props)
    ensures Balanced(" { " + props + " }")
  {
    BalancedPadded(props);
    BalancedBrace(Padded(props));
    BalancedBraceFree(" ");
    BalancedConcat(" ", "{" + Padded(props) + "}");
    assert " { " + props + " }" == " " + ("{" + Padded(props) + "}");
  }

  lemma IpBodyBalanced(ip: IpSpec)
    requires IpBalanced(ip)
    ensures Balanced(IpBody(ip))
  {
    var props := JoinSpace(PropertyTexts(ip.properties));
    PropertiesBalanced(ip.properties);
    var version := " {" + IpVersion + "} ";
    VersionBalanced();
    var field := " { " + props + " }";
    PropertiesFieldBalanced(props);
    BalancedJoin3(ip.name, version, ip.moduleName);
    BalancedConcat(ip.name + version + ip.moduleName, field);
    assert IpText(ip) == ip.name + version + ip.moduleName + field;
    BalancedPadded(IpText(ip));
  }

  /** `{ ip }` is the IP's body in braces, so the IP list is a brace list of bodies. */
  lemma {:induction false} IpEntriesAreBraced(ips: seq<IpSpec>)
    ensures IpEntries(ips) == BraceEach(IpBodies(ips))
    decreases |ips|
  {
    if ips != [] {
      IpEntriesAreBraced(ips[1..]);
      assert "{ " + IpText(ips[0]) + " }" == "{" + IpBody(ips[0]) + "}";
    }
  }

  lemma {:induction false} IpBodiesBalanced(ips: seq<IpSpec>)
    requires forall i :: 0 <= i < |ips| ==> IpBalanced(ips[i])
    ensures AllBalanced(IpBodies(ips))
    decreases |ips|
  {
    if ips != [] {
      assert IpBalanced(ips[0]);
      IpBodyBalanced(ips[0]);
      assert forall i :: 0 <= i < |ips[1..]| ==> ips[1..][i] == ips[i + 1];
      IpBodiesBalanced(ips[1..]);
      assert IpBodies(ips) == [IpBody(ips[0])] + IpBodies(ips[1..]);
    }
  }

  /** The IP argument is balanced and reads back as one body per IP, in order. */
  lemma IpsField(ips: seq<IpSpec>)
    requires forall i :: 0 <= i < |ips| ==> IpBalanced(ips[i])
    ensures Balanced(IpsText(ips))
    ensures Words(IpsText(ips)) == Some(IpBodies(ips))
  {
    IpEntriesAreBraced(ips);
    IpBodiesBalanced(ips);
    BraceListBalanced(IpBodies(ips));
    WordsBraceList(IpBodies(ips), "");
    assert IpsText(ips) + "" == IpsText(ips);
    assert Words("") == Some([]);
    assert IpBodies(ips) + [] == IpBodies(ips);
  }

  /** What one property `{ k v }` holds between its braces. */
  function PropertyBody(p: (string, string)): string {
    " " + p.0 + " " + p.1 + " "
  }

  function PropertyBodies(ps: seq<(string, string)>): (r: seq<string>)
    ensures |r| == |ps|
    decreases |ps|
  {
    if ps == [] then [] else [PropertyBody(ps[0])] + PropertyBodies(ps[1..])
  }

  /** The property list is a brace list of property bodies. */
  lemma {:induction false} PropertyTextsAreBraced(ps: seq<(string, string)>)
    ensures PropertyTexts(ps) == BraceEach(PropertyBodies(ps))
    decreases |ps|
  {
    if ps != [] {
      PropertyTextsAreBraced(ps[1..]);
      assert PropertyText(ps[0]) == "{" + PropertyBody(ps[0]) + "}";
    }
  }

  /** A lone space holds no word. */
  lemma WordsBlank()
    ensures Words(" ") == Some([])
  {
    assert " "[1..] == "";
  }

  /** A property whose key and value are bare words reads back as `[k, v]`. */
  lemma PropertyWords(p: (string, string))
    requires BareWord(p.0) && BareWord(p.1)
    ensures Words(PropertyBody(p)) == Some([p.0, p.1])
  {
    var t1 := p.1 + " ";
    assert Words(t1) == Some([p.1]) by {
      WordsBare(p.1, " ");
      WordsBlank();
      assert [p.1] + [] == [p.1];
    }
    var t2 := p.0 + (" " + t1);
    assert Words(t2) == Some([p.0, p.1]) by {
      WordsBare(p.0, " " + t1);
      WordsSpace(t1);
      assert [p.0] + [p.1] == [p.0, p.1];
    }
    assert PropertyBody(p) == " " + t2;
    WordsSpace(t2);
  }

  lemma {:induction false} PropertyBodiesBalanced(ps: seq<(string, string)>)
    requires forall i :: 0 <= i < |ps| ==> Balanced(ps[i].0) && Balanced(ps[i].1)
    ensures AllBalanced(PropertyBodies(ps))
    decreases |ps|
  {
    if ps != [] {
      var p := ps[0];
      assert Balanced(p.0) && Balanced(p.1);
      BalancedBraceFree(" ");
      BalancedJoin3(" ", p.0, " ");
      BalancedJoin3(" " + p.0 + " ", p.1, " ");
      assert forall i :: 0 <= i < |ps[1..]| ==> ps[1..][i] == ps[i + 1];
      PropertyBodiesBalanced(ps[1..]);
      assert PropertyBodies(ps) == [PropertyBody(p)] + PropertyBodies(ps[1..]);
    }
  }

  /** The `{ properties }` part of an IP reads back as one body per property,
      and each body as its key and value. */
  lemma PropertiesRead(ps: seq<(string, string)>)
    requires forall i :: 0 <= i < |ps| ==> Balanced(ps[i].0) && Balanced(ps[i].1)
    requires forall i :: 0 <= i < |ps| ==> BareWord(ps[i].0) && BareWord(ps[i].1)
    ensures Balanced(Padded(JoinSpace(PropertyTexts(ps))))
    ensures Words(Padded(JoinSpace(PropertyTexts(ps)))) == Some(PropertyBodies(ps))
    ensures forall i :: 0 <= i < |ps| ==> Words(PropertyBodies(ps)[i]) == Some([ps[i].0, ps[i].1])
  {
    PropertyTextsAreBraced(ps);
    PropertyBodiesBalanced(ps);
    ListField(PropertyBodies(ps));
    forall i | 0 <= i < |ps|
      ensures Words(PropertyBodies(ps)[i]) == Some([ps[i].0, ps[i].1])
    {
      PropertyBodyAt(ps, i);
      PropertyWords(ps[i]);
    }
  }

  lemma {:induction false} PropertyBodyAt(ps: seq<(string, string)>, i: nat)
    requires i < |ps|
    ensures PropertyBodies(ps)[i] == PropertyBody(ps[i])
    decreases i
  {
    if i > 0 {
      PropertyBodyAt(ps[1..], i - 1);
    }
  }

  /** An IP whose name and module are bare words reads back as its four words:
      name, version, module and the property list. */
  lemma IpWords(ip: IpSpec)
    requires IpBalanced(ip) && BareWord(ip.name) && BareWord(ip.moduleName)
    ensures Words(IpBody(ip)) == Some([ip.name, IpVersion, ip.moduleName, Padded(JoinSpace(PropertyTexts(ip.properties)))])
  {
    var props := Padded(JoinSpace(PropertyTexts(ip.properties)));
    PropertiesBalanced(ip.properties);
    BalancedPadded(JoinSpace(PropertyTexts(ip.properties)));
    assert Balanced(IpVersion);
    IpWordsFrom(ip.name, ip.moduleName, props, IpBody(ip));
  }

  /** The word structure of an IP body, over its pieces. */
  lemma IpWordsFrom(name: string, moduleName: string, props: string, body: string)
    requires Balanced(props) && BareWord(name) && BareWord(moduleName)
    requires body == " " + name + " {" + IpVersion + "} " + moduleName + " {" + props + "}" + " "
    ensures Words(body) == Some([name, IpVersion, moduleName, props])
  {
    var a := "{" + props + "}" + " ";
    assert Words(a) == Some([props]) by {
      WordsBraced(props, " ");
      WordsBlank();
      assert [props] + [] == [props];
    }
    var b := moduleName + (" " + a);
    assert Words(b) == Some([moduleName, props]) by {
      WordsBare(moduleName, " " + a);
      WordsSpace(a);
      assert [moduleName] + [props] == [moduleName, props];
    }
    var c := "{" + IpVersion + "}" + (" " + b);
    assert Words(c) == Some([IpVersion, moduleName, props]) by {
      assert Balanced(IpVersion);
      WordsBraced(IpVersion, " " + b);
      WordsSpace(b);
      assert [IpVersion] + [moduleName, props] == [IpVersion, moduleName, props];
    }
    var d := name + (" " + c);
    assert Words(d) == Some([name, IpVersion, moduleName, props]) by {
      WordsBare(name, " " + c);
      WordsSpace(c);
      assert [name] + [IpVersion, moduleName, props] == [name, IpVersion, moduleName, props];
    }
    IpBodyShape(name, moduleName, props);
    WordsSpace(d);
  }

  /** The IP body regrouped word by word. */
  lemma IpBodyShape(name: string, moduleName: string, props: string)
    ensures " " + name + " {" + IpVersion + "} " + moduleName + " {" + props + "}" + " "
         == " " + (name + (" " + ("{" + IpVersion + "}" + (" " + (moduleName + (" " + ("{" + props + "}" + " ")))))))
  {
  }

  /** The IP argument read all the way down: one body per IP, each body as the
      IP's four words, and each property as its key and value. */
  lemma IpsRead(ips: seq<IpSpec>)
    requires forall i :: 0 <= i < |ips| ==> IpBalanced(ips[i])
    requires forall i :: 0 <= i < |ips| ==> BareWord(ips[i].name) && BareWord(ips[i].moduleName)
    requires forall i, j :: 0 <= i < |ips| && 0 <= j < |ips[i].properties| ==>
               BareWord(ips[i].properties[j].0) && BareWord(ips[i].properties[j].1)
    ensures Words(IpsText(ips)) == Some(IpBodies(ips))
    ensures |IpBodies(ips)| == |ips|
    ensures forall i :: 0 <= i < |ips| ==>
              Words(IpBodies(ips)[i]) == Some([ips[i].name, IpVersion, ips[i].moduleName,
                                               Padded(JoinSpace(PropertyTexts(ips[i].properties)))])
    ensures forall i :: 0 <= i < |ips| ==>
              Words(Padded(JoinSpace(PropertyTexts(ips[i].properties)))) == Some(PropertyBodies(ips[i].properties))
    ensures forall i, j :: 0 <= i < |ips| && 0 <= j < |ips[i].properties| ==>
              Words(PropertyBodies(ips[i].properties)[j]) == Some([ips[i].properties[j].0, ips[i].properties[j].1])
  {
    IpsField(ips);
    IpBodiesLength(ips);
    forall i | 0 <= i < |ips|
      ensures Words(IpBodies(ips)[i]) == Some([ips[i].name, IpVersion, ips[i].moduleName,
                                               Padded(JoinSpace(PropertyTexts(ips[i].properties)))])
      ensures Words(Padded(JoinSpace(PropertyTexts(ips[i].properties)))) == Some(PropertyBodies(ips[i].properties))
      ensures forall j :: 0 <= j < |ips[i].properties| ==>
                Words(PropertyBodies(ips[i].properties)[j]) == Some([ips[i].properties[j].0, ips[i].properties[j].1])
    {
      var ip := ips[i];
      assert IpBalanced(ip);
      IpBodyAt(ips, i);
      IpWords(ip);
      PropertiesRead(ip.properties);
    }
  }

  lemma {:induction false} IpBodiesLength(ips: seq<IpSpec>)
    ensures |IpBodies(ips)| == |ips|
    decreases |ips|
  {
    if ips != [] {
      IpBodiesLength(ips[1..]);
    }
  }

  lemma {:induction false} IpBodyAt(ips: seq<IpSpec>, i: nat)
    requires i < |ips|
    ensures |IpBodies(ips)| == |ips| && IpBodies(ips)[i] == IpBody(ips[i])
    decreases i
  {
    IpBodiesLength(ips);
    if i > 0 {
      IpBodyAt(ips[1..], i - 1);
    }
  }

  /** The last four arguments of the create-project command. */
  lemma TargetFieldsWords(part: string, board: string, ips: string, top: string)
    requires Balanced(part) && Balanced(board) && Balanced(ips) && Balanced(top)
    ensures Words(Field(part, Field(board, Field(ips, "{" + top + "}")))) == Some([part, board, ips, top])
  {
    LastField(top);
    FieldThen(ips, "{" + top + "}", [top]);
    assert [ips] + [top] == [ips, top];
    FieldThen(board, Field(ips, "{" + top + "}"), [ips, top]);
    assert [board] + [ips, top] == [board, ips, top];
    FieldThen(part, Field(board, Field(ips, "{" + top + "}")), [board, ips, top]);
    assert [part] + [board, ips, top] == [part, board, ips, top];
  }

  /** List shapes of the word lemmas, kept apart so that the string facts in
      scope there do not slow down the sequence reasoning. */
  lemma Eight(a: string, b: string, c: string, d: string, e: string, f: string, g: string, h: string)
    ensures [a] + ([b] + ([c] + ([d] + [e, f, g, h]))) == [a, b, c, d, e, f, g, h]
  {
  }

  lemma Four(a: string, b: string, c: string, d: string)
    ensures [a] + ([b] + ([c] + [d])) == [a, b, c, d]
  {
  }

  /** The procedure names are read as themselves. */
  lemma ProcsAreBare()
    ensures BareWord(CreateProjectProc) && BareWord(CreateSimsetProc)
  {
  }

  /** The words of a create-project text whose arguments are balanced. */
  lemma CreateProjectWords(directory: string, design: string, sim: string,
                           part: string, board: string, ips: string, top: string)
    requires Balanced(directory) && Balanced(part) && Balanced(board) && Balanced(ips) && Balanced(top)
    requires Balanced(design) && Balanced(sim)
    ensures Words(CreateProjectProc + " " + Field(directory, Field(design, " " + Field(sim,
                    Field(part, Field(board, Field(ips, "{" + top + "}")))))))
         == Some([CreateProjectProc, directory, design, sim, part, board, ips, top])
  {
    var t4 := Field(part, Field(board, Field(ips, "{" + top + "}")));
    var tail4 := [part, board, ips, top];
    TargetFieldsWords(part, board, ips, top);
    var t3 := Field(sim, t4);
    FieldThen(sim, t4, tail4);
    WordsSpace(t3);
    var t2 := Field(design, " " + t3);
    FieldThen(design, " " + t3, [sim] + tail4);
    var t1 := Field(directory, t2);
    FieldThen(directory, t2, [design] + ([sim] + tail4));
    ProcsAreBare();
    WordsBare(CreateProjectProc, " " + t1);
    WordsSpace(t1);
    assert CreateProjectProc + " " + t1 == CreateProjectProc + (" " + t1);
    Eight(CreateProjectProc, directory, design, sim, part, board, ips, top);
  }

  /** The interpreter reads a create-project command back into its arguments. */
  lemma ReadCreateProjectText(directory: string, designFiles: seq<string>, simulationFiles: seq<string>,
                              part: string, board: string, ips: seq<IpSpec>, topModule: string)
    requires Balanced(directory) && Balanced(part) && Balanced(board) && Balanced(topModule)
    requires AllBalanced(designFiles) && AllBalanced(simulationFiles)
    requires forall i :: 0 <= i < |ips| ==> IpBalanced(ips[i])
    ensures ReadCreateProject(CreateProjectText(directory, designFiles, simulationFiles, part, board, ips, topModule))
         == Some(CreateArgs(directory, designFiles, simulationFiles, part, board, IpBodies(ips), topModule))
  {
    var design, sim, ipsText := Padded(FileList(designFiles)), Padded(FileList(simulationFiles)), IpsText(ips);
    ListField(designFiles);
    ListField(simulationFiles);
    IpsField(ips);
    CreateProjectWords(directory, design, sim, part, board, ipsText, topModule);
    ReadEightWords(CreateProjectText(directory, designFiles, simulationFiles, part, board, ips, topModule),
                   directory, design, sim, part, board, ipsText, topModule,
                   designFiles, simulationFiles, IpBodies(ips));
  }

  /** A command of the eight expected words reads back into its arguments. */
  lemma ReadEightWords(cmd: string, directory: string, design: string, sim: string,
                       part: string, board: string, ips: string, top: string,
                       designFiles: seq<string>, simulationFiles: seq<string>, ipWords: seq<string>)
    requires Words(cmd) == Some([CreateProjectProc, directory, design, sim, part, board, ips, top])
    requires Words(design) == Some(designFiles) && Words(sim) == Some(simulationFiles)
    requires Words(ips) == Some(ipWords)
    ensures ReadCreateProject(cmd) == Some(CreateArgs(directory, designFiles, simulationFiles, part, board, ipWords, top))
  {
  }

  /** A last braced argument followed by the `;` that ends the command. */
  lemma LastFieldThenEnd(w: string)
    requires Balanced(w)
    ensures Words("{" + w + "}" + ";") == Some([w])
  {
    WordsBraced(w, ";");
    assert ";"[0] == ';';
    assert Words(";") == Some([]);
    assert [w] + [] == [w];
  }

  /** The words of a create-simset text whose arguments are balanced. */
  lemma CreateSimsetWords(directory: string, testName: string, files: string)
    requires Balanced(directory) && Balanced(testName) && Balanced(files)
    ensures Words(CreateSimsetProc + " " + Field(directory, Field(testName, "{" + files + "}" + ";")))
         == Some([CreateSimsetProc, directory, testName, files])
  {
    var t3 := "{" + files + "}" + ";";
    LastFieldThenEnd(files);
    var t2 := Field(testName, t3);
    FieldThen(testName, t3, [files]);
    var t1 := Field(directory, t2);
    FieldThen(directory, t2, [testName] + [files]);
    ProcsAreBare();
    WordsBare(CreateSimsetProc, " " + t1);
    WordsSpace(t1);
    assert CreateSimsetProc + " " + t1 == CreateSimsetProc + (" " + t1);
    Four(CreateSimsetProc, directory, testName, files);
  }

  /** The interpreter reads a create-simset command back into its arguments. */
  lemma ReadCreateSimsetText(directory: string, testName: string, simulationFiles: seq<string>)
    requires Balanced(directory) && Balanced(testName) && AllBalanced(simulationFiles)
    ensures ReadCreateSimset(CreateSimsetText(directory, testName, simulationFiles))
         == Some(SimsetArgs(directory, testName, simulationFiles))
  {
    ListField(simulationFiles);
    CreateSimsetWords(directory, testName, Padded(FileList(simulationFiles)));
  }
}

=== FILE: paths.dfy ===
/** Filesystem paths, shared by the project directory and the testbench files. */
module Paths {

  /** A filesystem path as its components: `os.path.join` appends one. */
  type Path = seq<string>
}

=== FILE: project.dfy ===
/** Opening a toolchain project (`VivadoProject.__init__`): decide from what
    is on disk and what the caller asks for whether to reuse the project, create
    it, or wipe and rebuild it, and carry out that decision — write the
    persisted parameters and the source hash, and submit the one task that
    creates the project. Also the report file names of the project directory. */
module Project {
  import opened Wrappers
  import opened Commands
  import Tasks
  import opened Paths

  /** The path as text, components joined by `/`. */
  function Render(p: Path): string
    decreases |p|
  {
    if p == [] then "" else if |p| == 1 then p[0] else p[0] + "/" + Render(p[1..])
  }

  /** The persisted `{part, board}` of a project; either may be None. */
  datatype Params = Params(part: Option<string>, board: Option<string>)

  /** A hash of the project's sources, as the hash helper computes it. */
  type Hash = string

  /** The project directory on disk: absent, or present with or without
      `TheProject.xpr`, with the parameters and the hash it holds, if any. */
  datatype ProjectDir =
    | Absent
    | Present(hasXpr: bool, params: Option<Params>, hash: Option<Hash>)

  /** What the caller asks for: a part and a board (None when omitted) and
      whether an existing project may be wiped. */
  datatype Request = Request(part: Option<string>, board: Option<string>, overwriteOk: bool)

  datatype Action =
    | Reuse    // open the existing project as it is
    | Fresh    // no directory yet: create the project
    | Rebuild  // wipe the existing directory and create the project again

  datatype OpenError =
    | CorruptProject                            // the directory exists without `TheProject.xpr`
    | MissingParams                             // an existing project has no persisted parameters
    | ParamConflict(persisted: Params, requested: Params) // part or board changed and overwriting is not allowed
    | StaleHash                                 // the sources changed and overwriting is not allowed
    | CommandFailed(error: CommandError)        // the create command could not be built

  /** The action decided on and the parameters the project is opened with. */
  datatype Decision = Decision(action: Action, params: Params)

  /** The sources of the project: its design and simulation files, its IPs and
      its top module (`files_and_ip`). */
  datatype Sources = Sources(designFiles: seq<string>, simulationFiles: seq<string>, ips: seq<IpSpec>, topModule: string)

  /** What opening sees and changes: the project directory and the task collection. */
  datatype World = World(dir: ProjectDir, tasks: Tasks.TaskStore)

  const CreateDescription := "Creating a new Vivado project."

  /** `os.path.join(project.directory, 'vivado')` */
  function VivadoDirectory(projectDirectory: Path): Path {
    projectDirectory + ["vivado"]
  }

  /** The parameters persisted in `dir`, None when there is no directory. */
  function OldParams(dir: ProjectDir): Option<Params> {
    if dir.Present? then dir.params else None
  }

  /** The requested parameters, an omitted part or board taken from the
      persisted ones when there are some. */
  function Resolve(req: Request, persisted: Option<Params>): (p: Params)
    ensures req.part.Some? ==> p.part == req.part
    ensures req.board.Some? ==> p.board == req.board
    ensures persisted.None? ==> p == Params(req.part, req.board)
    ensures persisted.Some? && req.part.None? ==> p.part == persisted.value.part
    ensures persisted.Some? && req.board.None? ==> p.board == persisted.value.board
  {
    match persisted
    case None => Params(req.part, req.board)
    case Some(o) =>
      Params(if req.part.None? then o.part else req.part,
             if req.board.None? then o.board else req.board)
  }

  /** The open decision, checks in the order the constructor makes them: the
      project file, the persisted parameters against the requested ones, the
      presence of parameters, and the source hash of an existing project. */
  function Decide(dir: ProjectDir, req: Request, current: Hash): (r: Result<Decision, OpenError>)
    ensures dir.Absent? ==> r == Success(Decision(Fresh, Params(req.part, req.board)))
    ensures dir.Present? && !dir.hasXpr ==> r == Failure(CorruptProject)
    ensures dir.Present? && dir.hasXpr && dir.params.None? ==> r == Failure(MissingParams)
    ensures dir.Present? && dir.hasXpr && dir.params.Some? && dir.params.value != Resolve(req, dir.params) ==>
      if req.overwriteOk then r == Success(Decision(Rebuild, Resolve(req, dir.params)))
      else r == Failure(ParamConflict(dir.params.value, Resolve(req, dir.params)))
    ensures dir.Present? && dir.hasXpr && dir.params == Some(Resolve(req, dir.params)) ==>
      if dir.hash == Some(current) then r == Success(Decision(Reuse, dir.params.value))
      else if req.overwriteOk then r == Success(Decision(Rebuild, dir.params.value))
      else r == Failure(StaleHash)
  {
    var isNew := dir.Absent?;
    if !isNew && !dir.hasXpr then Failure(CorruptProject)
    else
      var persisted := OldParams(dir);
      var newParams := Resolve(req, persisted);
      var conflict := persisted.Some? && persisted.value != newParams;
      if conflict && !req.overwriteOk then Failure(ParamConflict(persisted.value, newParams))
      else if persisted.None? && !isNew then Failure(MissingParams)
      else
        var hashChanged := !isNew && dir.hash != Some(current);
        if hashChanged && !req.overwriteOk then Failure(StaleHash)
        else if isNew then Success(Decision(Fresh, newParams))
        else if conflict || hashChanged then Success(Decision(Rebuild, newParams))
        else Success(Decision(Reuse, newParams))
  }

  /** The project directory right after a (re)creation: parameters and hash
      written, `TheProject.xpr` not yet there. */
  function Created(params: Params, current: Hash): ProjectDir {
    Present(false, Some(params), Some(current))
  }

  /** `VivadoProject.__init__` and `launch_create_task`: decide, and for a new
      or refreshed project recreate the directory, persist the parameters and
      the hash, build the create command and submit and run one task for it.
      Removing the directory of a rebuilt project removes the task records
      that ran in it. An error of the decision leaves everything untouched; an
      error building the command comes after the directory has been written. */
  function Open(w: World, projectDirectory: Path, req: Request, current: Hash, sources: Sources,
                boards: map<string, BoardInfo>): (r: (World, Result<Decision, OpenError>))
    requires Tasks.Valid(w.tasks)
    ensures Tasks.Valid(r.0.tasks)
    ensures Decide(w.dir, req, current).Failure? ==> r == (w, Failure(Decide(w.dir, req, current).error))
    ensures r.1.Success? ==> r.1 == Decide(w.dir, req, current)
    ensures r.1.Success? && r.1.value.action == Reuse ==> r.0 == w
    ensures r.1.Failure? && !r.1.error.CommandFailed? ==> r.0 == w
    ensures r.1.Failure? ==> r.1 != Failure(CommandFailed(ProjectExists))
    ensures r.1.Failure? && r.1.error.CommandFailed? ==>
      r.0.dir == Created(Decide(w.dir, req, current).value.params, current)
    // a task is submitted exactly for a new or rebuilt project, under the next id
    ensures w.tasks.nextId in r.0.tasks.records <==> r.1.Success? && r.1.value.action != Reuse
    // apart from that task, records only disappear, and only those of a rebuilt directory
    ensures forall id :: id in r.0.tasks.records && id != w.tasks.nextId ==>
      id in w.tasks.records && r.0.tasks.records[id] == w.tasks.records[id]
    ensures forall id :: id in w.tasks.records && id !in r.0.tasks.records ==>
      && Decide(w.dir, req, current).Success? && Decide(w.dir, req, current).value.action == Rebuild
      && w.tasks.records[id].parentDirectory == Render(VivadoDirectory(projectDirectory))
    ensures Decide(w.dir, req, current).Success? && Decide(w.dir, req, current).value.action == Rebuild ==>
      forall id :: id in w.tasks.records && w.tasks.records[id].parentDirectory == Render(VivadoDirectory(projectDirectory))
        ==> id !in r.0.tasks.records
    ensures r.1.Success? && r.1.value.action == Fresh ==> Tasks.Count(r.0.tasks) == Tasks.Count(w.tasks) + 1
    ensures r.1.Success? && r.1.value.action != Reuse ==>
      && r.0.dir == Created(r.1.value.params, current)
      && var id := w.tasks.nextId;
         && r.0.tasks.records[id].parentDirectory == Render(VivadoDirectory(projectDirectory))
         && r.0.tasks.records[id].description == CreateDescription
         && r.0.tasks.records[id].status == Tasks.Running
         && MakeCreateProjectCommand(Render(VivadoDirectory(projectDirectory)), sources.designFiles,
                                     sources.simulationFiles, sources.ips, r.1.value.params.part,
                                     r.1.value.params.board, sources.topModule, false, boards)
            == Success(r.0.tasks.records[id].command)
  {
    match Decide(w.dir, req, current)
    case Failure(e) => (w, Failure(e))
    case Success(d) =>
      if d.action == Reuse then (w, Success(d))
      else
        var dir := Created(d.params, current);
        var directory := Render(VivadoDirectory(projectDirectory));
        match MakeCreateProjectCommand(directory, sources.designFiles, sources.simulationFiles, sources.ips,
                                       d.params.part, d.params.board, sources.topModule, dir.hasXpr, boards)
        case Failure(e) => (World(dir, Cleared(w.tasks, directory, d.action == Rebuild)), Failure(CommandFailed(e)))
        case Success(command) => (World(dir, Submit(w.tasks, directory, command, d.action == Rebuild)), Success(d))
  }

  /** The task records once the project directory is (re)made: a rebuild
      removes the directory, and with it the records of the tasks run there. */
  function Cleared(tasks: Tasks.TaskStore, directory: string, rebuild: bool): (r: Tasks.TaskStore)
    requires Tasks.Valid(tasks)
    ensures Tasks.Valid(r) && r.nextId == tasks.nextId
    ensures forall id :: id in r.records ==> id in tasks.records && r.records[id] == tasks.records[id]
    ensures forall id :: id in tasks.records ==>
      (id in r.records <==> !rebuild || tasks.records[id].parentDirectory != directory)
  {
    if rebuild then Tasks.DropDirectory(tasks, directory) else tasks
  }

  /** `launch_create_task`: the records once the directory is (re)made, plus
      the create task, submitted under the next id and running. */
  function Submit(tasks: Tasks.TaskStore, directory: string, command: string, rebuild: bool): (r: Tasks.TaskStore)
    requires Tasks.Valid(tasks)
    ensures Tasks.Valid(r)
    ensures tasks.nextId in r.records
    ensures r.records[tasks.nextId] == Tasks.TaskRecord(directory, CreateDescription, command, Tasks.Running, [])
    ensures forall id :: id in r.records && id != tasks.nextId ==> id in tasks.records && r.records[id] == tasks.records[id]
    ensures forall id :: id in tasks.records ==>
      (id in r.records <==> !rebuild || tasks.records[id].parentDirectory != directory)
    ensures !rebuild ==> Tasks.Count(r) == Tasks.Count(tasks) + 1
  {
    var kept := Cleared(tasks, directory, rebuild);
    assert tasks.nextId !in kept.records;
    var (created, id) := Tasks.Create(kept, directory, CreateDescription, command);
    var running := Tasks.Run(created, id).value;
    assert running.records.Keys == created.records.Keys;
    running
  }

  /** The toolchain finishing the create task: `TheProject.xpr` appears. */
  function ProjectFileWritten(dir: ProjectDir): ProjectDir {
    match dir
    case Absent => Absent
    case Present(_, params, hash) => Present(true, params, hash)
  }

  /** If the directory exists but its project file does not, opening fails
      whatever the parameters and the hash say. */
  lemma CorruptBeforeAnythingElse(params: Option<Params>, hash: Option<Hash>, req: Request, current: Hash)
    ensures Decide(Present(false, params, hash), req, current) == Failure(CorruptProject)
  {
  }

  /** An existing project without persisted parameters fails, whether or not
      overwriting is allowed. */
  lemma MissingParamsWhateverOverwrite(hash: Option<Hash>, part: Option<string>, board: Option<string>, current: Hash)
    ensures Decide(Present(true, None, hash), Request(part, board, false), current) == Failure(MissingParams)
    ensures Decide(Present(true, None, hash), Request(part, board, true), current) == Failure(MissingParams)
  {
  }

  /** Against persisted parameters, the request conflicts exactly when it
      supplies a part or a board different from the persisted one; omitting
      both never conflicts. */
  lemma ConflictIffSuppliedDiffers(persisted: Params, req: Request)
    ensures Resolve(req, Some(persisted)) != persisted <==>
      (req.part.Some? && req.part != persisted.part) || (req.board.Some? && req.board != persisted.board)
    ensures req.part.None? && req.board.None? ==> Resolve(req, Some(persisted)) == persisted
  {
  }

  /** The hash is consulted only for an existing project: a new one is created
      whatever hash it is given. */
  lemma HashOnlyForExisting(req: Request, h1: Hash, h2: Hash)
    ensures Decide(Absent, req, h1) == Decide(Absent, req, h2)
  {
  }

  /** Opening submits a task exactly when it creates or rebuilds, and then
      exactly one; it touches the project directory or the task records only
      then, or when the create command is refused after the directory was
      written. */
  lemma LaunchIffFreshOrRebuild(w: World, projectDirectory: Path, req: Request, current: Hash, sources: Sources,
                                boards: map<string, BoardInfo>)
    requires Tasks.Valid(w.tasks)
    ensures var (w2, r) := Open(w, projectDirectory, req, current, sources, boards);
      var launched := r.Success? && r.value.action in {Fresh, Rebuild};
      && (set id | id in w2.tasks.records && id !in w.tasks.records) == (if launched then {w.tasks.nextId} else {})
      && (launched ==> w2.tasks != w.tasks)
      && (w2 != w ==> launched || (r.Failure? && r.error.CommandFailed?))
  {
    var (w2, r) := Open(w, projectDirectory, req, current, sources, boards);
    var launched := r.Success? && r.value.action in {Fresh, Rebuild};
    AddedIds(w.tasks, w2.tasks, launched);
    if launched {
      assert w.tasks.nextId in w2.tasks.records;
    }
  }

  /** A store that gains at most the next id gains exactly it when it holds it. */
  lemma AddedIds(before: Tasks.TaskStore, after: Tasks.TaskStore, launched: bool)
    requires Tasks.Valid(before)
    requires before.nextId in after.records <==> launched
    requires forall id :: id in after.records && id != before.nextId ==> id in before.records
    ensures (set id | id in after.records && id !in before.records) == (if launched then {before.nextId} else {})
  {
    var added := set id | id in after.records && id !in before.records;
    assert before.nextId !in before.records;
    if launched {
      assert before.nextId in added;
    }
  }

  /** Opening a project again once its create task has written the project
      file, with the same request and unchanged sources, reuses it; so does
      a request that omits part and board. */
  lemma ReopenReuses(w: World, projectDirectory: Path, req: Request, current: Hash, sources: Sources,
                     boards: map<string, BoardInfo>)
    requires Tasks.Valid(w.tasks)
    requires Open(w, projectDirectory, req, current, sources, boards).1.Success?
    ensures var (w2, r) := Open(w, projectDirectory, req, current, sources, boards);
      var dir := ProjectFileWritten(w2.dir);
      && Decide(dir, req, current) == Success(Decision(Reuse, r.value.params))
      && Decide(dir, Request(None, None, req.overwriteOk), current) == Success(Decision(Reuse, r.value.params))
  {
    var (w2, r) := Open(w, projectDirectory, req, current, sources, boards);
    var d := Decide(w.dir, req, current).value;
    if d.action == Reuse {
      assert w2.dir == w.dir;
      assert w.dir.Present? && w.dir.hasXpr;
    }
    var dir := ProjectFileWritten(w2.dir);
    assert dir.Present? && dir.params == Some(d.params);
    assert d.params == Resolve(req, Some(d.params)) by {
      if w.dir.Present? {
        assert d.params == Resolve(req, w.dir.params);
      }
    }
  }

  /** While the create task has not yet written the project file, opening
      again fails as a corrupt project; so does opening after the command
      could not be built. */
  lemma OpenWhileCreating(w: World, projectDirectory: Path, req: Request, current: Hash, sources: Sources,
                          boards: map<string, BoardInfo>, req2: Request, current2: Hash)
    requires Tasks.Valid(w.tasks)
    requires var r := Open(w, projectDirectory, req, current, sources, boards).1;
      (r.Success? && r.value.action != Reuse) || (r.Failure? && r.error.CommandFailed?)
    ensures Decide(Open(w, projectDirectory, req, current, sources, boards).0.dir, req2, current2) == Failure(CorruptProject)
  {
  }

  /** A new project whose board is in the board table cannot also be given a
      part: the directory is written, the command is refused, and the next
      open finds a corrupt project. */
  lemma KnownBoardWithPart(projectDirectory: Path, tasks: Tasks.TaskStore, part: string, board: string,
                           current: Hash, sources: Sources, boards: map<string, BoardInfo>)
    requires Tasks.Valid(tasks) && board in boards
    ensures var (w2, r) := Open(World(Absent, tasks), projectDirectory, Request(Some(part), Some(board), false),
                                current, sources, boards);
      && r == Failure(CommandFailed(PartGivenForKnownBoard))
      && w2 == World(Created(Params(Some(part), Some(board)), current), tasks)
  {
  }

  /** `utilization_file`: the synthesis or the implementation report. */
  function UtilizationFile(directory: Path, fromSynthesis: bool): Path {
    directory + [if fromSynthesis then "synth_utilization.txt" else "impl_utilization.txt"]
  }

  /** `power_file`: the synthesis or the implementation report. */
  function PowerFile(directory: Path, fromSynthesis: bool): Path {
    directory + [if fromSynthesis then "synth_power.txt" else "impl_power.txt"]
  }

  /** The four report files are distinct files directly inside the directory. */
  lemma ReportFilesDistinct(directory: Path, a: bool, b: bool)
    ensures UtilizationFile(directory, a) == UtilizationFile(directory, b) <==> a == b
    ensures PowerFile(directory, a) == PowerFile(directory, b) <==> a == b
    ensures UtilizationFile(directory, a) != PowerFile(directory, b)
    ensures UtilizationFile(directory, a)[..|directory|] == directory && |UtilizationFile(directory, a)| == |directory| + 1
    ensures PowerFile(directory, a)[..|directory|] == directory && |PowerFile(directory, a)| == |directory| + 1
  {
    var n := |directory|;
    assert UtilizationFile(directory, a)[n] == (if a then "synth_utilization.txt" else "impl_utilization.txt");
    assert UtilizationFile(directory, b)[n] == (if b then "synth_utilization.txt" else "impl_utilization.txt");
    assert PowerFile(directory, a)[n] == (if a then "synth_power.txt" else "impl_power.txt");
    assert PowerFile(directory, b)[n] == (if b then "synth_power.txt" else "impl_power.txt");
  }
}

=== FILE: tasks.dfy ===
/** The task collection that records the toolchain processes the project
    wrapper launches. Its implementation is not part of this model: this is a
    specification model of the behaviour its callers and its unit tests rely
    on — `drop`, `create`, `count`, `find_by_id`, `run`, `wait`, `run_and_wait`
    and `get_errors`. */
module Tasks {
  import opened Wrappers

  datatype Status = Pending | Running | Completed | Failed | Killed {
    /** The process has ended, one way or another. */
    predicate Finished() {
      Completed? || Failed? || Killed?
    }
  }

  /** One stored task: the directory its process runs in, what it is for, the
      command text it sends to the toolchain, where it is in its life, and the
      errors collected from its log. */
  datatype TaskRecord = TaskRecord(parentDirectory: string, description: string, command: string,
                                   status: Status, errors: seq<string>)

  /** The collection: records by id, and the id the next `create` hands out. */
  datatype TaskStore = TaskStore(records: map<nat, TaskRecord>, nextId: nat)

  datatype TaskError =
    | NotFound         // no record has this id
    | AlreadyStarted   // `run` or `run_and_wait` of a task that is no longer pending
    | NotStarted       // `wait` for a task that was never run

  /** How the supervised process ended: it exited with a code and left a log,
      or it outlived the timeout and was killed. */
  datatype ProcessEnd = Exited(code: int, log: seq<string>) | TimedOut(log: seq<string>)

  const ExitCodeMessage := "The process exited with a non-zero code."
  const TimeoutMessage := "The process was killed after the timeout."

  /** Every id the store has handed out is below `nextId`. */
  predicate Valid(store: TaskStore) {
    forall id :: id in store.records ==> id < store.nextId
  }

  /** `tasks_collection.count()` */
  function Count(store: TaskStore): (n: nat)
    ensures n == 0 <==> store.records == map[]
  {
    |store.records.Keys|
  }

  /** `tasks_collection.drop()`: forgets every record. Ids are not reused. */
  function Drop(store: TaskStore): (r: TaskStore)
    ensures Valid(r) && Count(r) == 0
    ensures forall id :: id !in r.records
  {
    TaskStore(map[], store.nextId)
  }

  /** The collection after the directory its records run in is removed: the
      records of that directory are gone, every other record is kept, and ids
      are not reused. */
  function DropDirectory(store: TaskStore, parentDirectory: string): (r: TaskStore)
    ensures Valid(store) ==> Valid(r)
    ensures r.nextId == store.nextId
    ensures forall id :: id in r.records <==> id in store.records && store.records[id].parentDirectory != parentDirectory
    ensures forall id :: id in r.records ==> r.records[id] == store.records[id]
  {
    TaskStore(map id | id in store.records && store.records[id].parentDirectory != parentDirectory :: store.records[id],
              store.nextId)
  }

  /** `tasks_collection.find_by_id(id)` */
  function FindById(store: TaskStore, id: nat): (r: Result<TaskRecord, TaskError>)
    ensures r.Success? <==> id in store.records
    ensures r.Success? ==> r.value == store.records[id]
    ensures r.Failure? ==> r.error == NotFound
  {
    if id in store.records then Success(store.records[id]) else Failure(NotFound)
  }

  /** `Task.create(parent_directory, ...)`: stores a new pending record under a
      fresh id and does not start it. */
  function Create(store: TaskStore, parentDirectory: string, description: string, command: string)
    : (r: (TaskStore, nat))
    requires Valid(store)
    ensures Valid(r.0)
    ensures r.1 !in store.records && r.1 in r.0.records
    ensures r.0.records[r.1] == TaskRecord(parentDirectory, description, command, Pending, [])
    ensures r.0.records.Keys == store.records.Keys + {r.1}
    ensures forall id :: id in store.records ==> r.0.records[id] == store.records[id]
    ensures Count(r.0) == Count(store) + 1
  {
    var id := store.nextId;
    var records := store.records[id := TaskRecord(parentDirectory, description, command, Pending, [])];
    assert records.Keys == store.records.Keys + {id};
    (TaskStore(records, id + 1), id)
  }

  /** `task.run()`: a pending task's process starts. */
  function Run(store: TaskStore, id: nat): (r: Result<TaskStore, TaskError>)
    ensures r.Success? <==> id in store.records && store.records[id].status == Pending
    ensures r.Success? ==> r.value == TaskStore(store.records[id := store.records[id].(status := Running)], store.nextId)
    ensures r.Failure? && id !in store.records ==> r.error == NotFound
  {
    if id !in store.records then Failure(NotFound)
    else if store.records[id].status != Pending then Failure(AlreadyStarted)
    else Success(TaskStore(store.records[id := store.records[id].(status := Running)], store.nextId))
  }

  /** The lines of `log` that `isError` marks, in order. */
  function ErrorLines(log: seq<string>, isError: string -> bool): (r: seq<string>)
    ensures |r| <= |log|
    ensures forall i :: 0 <= i < |r| ==> isError(r[i]) && r[i] in log
    ensures forall i :: 0 <= i < |log| && isError(log[i]) ==> log[i] in r
    decreases |log|
  {
    if log == [] then []
    else
      var rest := ErrorLines(log[1..], isError);
      assert forall l :: l in log[1..] ==> l in log;
      assert forall i :: 1 <= i < |log| ==> log[i] == log[1..][i - 1];
      if isError(log[0]) then [log[0]] + rest else rest
  }

  /** The final status and the errors of a finished process: a clean exit with
      no error line completes; error lines, a non-zero code or a timeout fail
      the task, and a failure with no error line of its own gets a message. */
  function Outcome(end: ProcessEnd, isError: string -> bool): (r: (Status, seq<string>))
    ensures r.0.Finished()
    ensures r.0 == Completed <==> end.Exited? && end.code == 0 && ErrorLines(end.log, isError) == []
    ensures r.0 == Killed <==> end.TimedOut?
    ensures r.0 == Completed <==> r.1 == []
  {
    var lines := ErrorLines(end.log, isError);
    match end
    case TimedOut(_) => (Killed, lines + [TimeoutMessage])
    case Exited(code, _) =>
      if code == 0 && lines == [] then (Completed, [])
      else if lines == [] then (Failed, [ExitCodeMessage])
      else (Failed, lines)
  }

  /** `task.wait()`: polls until the task's process has ended. A running
      task ends as `end` says, with its final status and errors recorded; a
      task that has already ended is returned as it is. A task that was never
      started has no process to wait for. */
  function Wait(store: TaskStore, id: nat, end: ProcessEnd, isError: string -> bool)
    : (r: Result<TaskStore, TaskError>)
    ensures r.Success? <==> id in store.records && store.records[id].status != Pending
    ensures r.Failure? && id in store.records ==> r.error == NotStarted
    ensures r.Success? && store.records[id].status.Finished() ==> r.value == store
    ensures r.Success? ==> r.value.records.Keys == store.records.Keys && r.value.nextId == store.nextId
    ensures r.Success? ==> forall other :: other in store.records && other != id ==>
                             r.value.records[other] == store.records[other]
    ensures r.Success? ==> r.value.records[id].status.Finished()
    ensures r.Success? && store.records[id].status == Running ==>
              (r.value.records[id].status == Completed <==> r.value.records[id].errors == [])
  {
    if id !in store.records then Failure(NotFound)
    else if store.records[id].status == Pending then Failure(NotStarted)
    else if store.records[id].status.Finished() then Success(store)
    else
      var (status, errors) := Outcome(end, isError);
      Success(TaskStore(store.records[id := store.records[id].(status := status, errors := errors)], store.nextId))
  }

  /** `task.run_and_wait()`: starts a pending task and waits for its process to
      end as `end` says, recording the final status and errors. A task that
      has already been started is refused. */
  function RunAndWait(store: TaskStore, id: nat, end: ProcessEnd, isError: string -> bool)
    : (r: Result<TaskStore, TaskError>)
    ensures r.Success? <==> id in store.records && store.records[id].status == Pending
    ensures r.Failure? && id in store.records ==> r.error == AlreadyStarted
    ensures r.Success? ==> r.value.records.Keys == store.records.Keys && r.value.nextId == store.nextId
    ensures r.Success? ==> forall other :: other in store.records && other != id ==>
                             r.value.records[other] == store.records[other]
    ensures r.Success? ==> r.value.records[id].status.Finished()
    ensures r.Success? ==> (r.value.records[id].status == Completed <==> r.value.records[id].errors == [])
  {
    if id !in store.records then Failure(NotFound)
    else if store.records[id].status != Pending then Failure(AlreadyStarted)
    else
      var (status, errors) := Outcome(end, isError);
      Success(TaskStore(store.records[id := store.records[id].(status := status, errors := errors)], store.nextId))
  }

  /** `task.get_errors()` */
  function GetErrors(store: TaskStore, id: nat): (r: Result<seq<string>, TaskError>)
    ensures r.Success? <==> id in store.records
    ensures r.Success? ==> r.value == store.records[id].errors
  {
    match FindById(store, id)
    case Success(record) => Success(record.errors)
    case Failure(e) => Failure(e)
  }

  /** A dropped collection holds exactly the one task created next, and finds it
      by its id with the parent directory it was created with. */
  lemma CreateAfterDrop(store: TaskStore, parentDirectory: string, description: string, command: string)
    ensures var (s, id) := Create(Drop(store), parentDirectory, description, command);
            && Count(s) == 1
            && FindById(s, id).Success?
            && FindById(s, id).value.parentDirectory == parentDirectory
            && FindById(s, id).value.status == Pending
  {
  }

  /** A created task is counted and found before it is run; once run and waited
      for, a process that did not end cleanly always reports at least one error. */
  lemma FailedTaskReportsErrors(store: TaskStore, parentDirectory: string, command: string,
                                end: ProcessEnd, isError: string -> bool)
    requires !(end.Exited? && end.code == 0 && ErrorLines(end.log, isError) == [])
    ensures var (s, id) := Create(Drop(store), parentDirectory, "", command);
            && Count(s) == 1
            && FindById(s, id).value.parentDirectory == parentDirectory
            && RunAndWait(s, id, end, isError).Success?
            && GetErrors(RunAndWait(s, id, end, isError).value, id).Success?
            && |GetErrors(RunAndWait(s, id, end, isError).value, id).value| > 0
  {
    var (s, id) := Create(Drop(store), parentDirectory, "", command);
    var r := RunAndWait(s, id, end, isError);
    assert r.value.records[id].status != Completed;
  }

  /** Running a task and later waiting for it, as report generation and
      `get_utilization` do, ends in the same record as `run_and_wait`. */
  lemma RunThenWait(store: TaskStore, id: nat, end: ProcessEnd, isError: string -> bool)
    requires Run(store, id).Success?
    ensures Wait(Run(store, id).value, id, end, isError) == RunAndWait(store, id, end, isError)
  {
    var s := Run(store, id).value;
    var (status, errors) := Outcome(end, isError);
    var rec := store.records[id];
    assert s.records[id := s.records[id].(status := status, errors := errors)]
        == store.records[id := rec.(status := status, errors := errors)];
  }

  /** A task is never run again once started, and waiting again for a task
      that has ended changes nothing, however its process is said to end. */
  lemma RunOnce(store: TaskStore, id: nat, end: ProcessEnd, later: ProcessEnd, isError: string -> bool)
    requires Run(store, id).Success?
    ensures Run(Run(store, id).value, id).Failure?
    ensures RunAndWait(Run(store, id).value, id, end, isError) == Failure(AlreadyStarted)
    ensures var waited := Wait(Run(store, id).value, id, end, isError).value;
      && Wait(waited, id, later, isError) == Success(waited)
      && RunAndWait(waited, id, end, isError) == Failure(AlreadyStarted)
  {
  }
}

=== FILE: tcl.dfy ===
/** A small reader for the TCL text that the command builders produce. It
    interprets only what the builders rely on: brace nesting, braced words,
    bare words, spaces between words and the `;` that ends a command. It is
    the independent reference against which the builders' brace-wrapping is
    proved: reading a built command back gives the arguments it was built from. */
module Tcl {
  import opened Wrappers

  /** `s` holds no brace at all. */
  predicate BraceFree(s: string) {
    '{' !in s && '}' !in s
  }

  /** Reading `s` from brace depth `d` never closes a brace that is not open
      and ends at depth `e`. */
  predicate Nests(s: string, d: nat, e: nat)
    decreases |s|
  {
    if s == [] then d == e
    else if s[0] == '{' then Nests(s[1..], d + 1, e)
    else if s[0] == '}' then d > 0 && Nests(s[1..], d - 1, e)
    else Nests(s[1..], d, e)
  }

  /** Text that may stand between a pair of braces: its own braces match up. */
  predicate Balanced(s: string) {
    Nests(s, 0, 0)
  }

  lemma {:induction false} BraceFreeNests(s: string, d: nat)
    requires BraceFree(s)
    ensures Nests(s, d, d)
    decreases |s|
  {
    if s != [] {
      assert s[0] in s;
      assert forall c :: c in s[1..] ==> c in s;
      BraceFreeNests(s[1..], d);
    }
  }

  lemma {:induction false} NestsConcat(a: string, b: string, d: nat, m: nat, e: nat)
    requires Nests(a, d, m) && Nests(b, m, e)
    ensures Nests(a + b, d, e)
    decreases |a|
  {
    if a == [] {
      assert a + b == b;
    } else {
      assert (a + b)[0] == a[0];
      assert (a + b)[1..] == a[1..] + b;
      if a[0] == '{' {
        NestsConcat(a[1..], b, d + 1, m, e);
      } else if a[0] == '}' {
        NestsConcat(a[1..], b, d - 1, m, e);
      } else {
        NestsConcat(a[1..], b, d, m, e);
      }
    }
  }

  lemma BalancedConcat(a: string, b: string)
    requires Balanced(a) && Balanced(b)
    ensures Balanced(a + b)
  {
    NestsConcat(a, b, 0, 0, 0);
  }

  /** Wrapping balanced text in one more pair of braces keeps it balanced. */
  lemma BalancedBrace(w: string)
    requires Balanced(w)
    ensures Balanced("{" + w + "}")
  {
    assert Nests("}", 1, 0) by {
      assert "}"[1..] == [];
    }
    NestsLift(w, 0, 0);
    NestsConcat(w, "}", 1, 1, 0);
    assert ("{" + (w + "}"))[1..] == w + "}";
    assert "{" + w + "}" == "{" + (w + "}");
  }

  /** Starting one level deeper ends one level deeper. */
  lemma {:induction false} NestsLift(s: string, d: nat, e: nat)
    requires Nests(s, d, e)
    ensures Nests(s, d + 1, e + 1)
    decreases |s|
  {
    if s != [] {
      if s[0] == '{' {
        NestsLift(s[1..], d + 1, e);
      } else if s[0] == '}' {
        NestsLift(s[1..], d - 1, e);
      } else {
        NestsLift(s[1..], d, e);
      }
    }
  }

  lemma BalancedBraceFree(s: string)
    requires BraceFree(s)
    ensures Balanced(s)
  {
    BraceFreeNests(s, 0);
  }

  /** Reads the body of a braced word whose opening brace has been consumed,
      `depth` braces deep inside it: the body up to the matching close brace,
      and the text after that brace. None when the brace is never closed. */
  function ReadBraced(s: string, depth: nat): (r: Option<(string, string)>)
    ensures r.Some? ==> s == r.value.0 + "}" + r.value.1
    ensures r.Some? ==> Nests(r.value.0, depth, 0)
    decreases |s|
  {
    if s == [] then None
    else if s[0] == '}' && depth == 0 then Some(([], s[1..]))
    else
      var inner := if s[0] == '{' then depth + 1 else if s[0] == '}' then depth - 1 else depth;
      match ReadBraced(s[1..], inner)
      case None => None
      case Some((w, rest)) => Some(([s[0]] + w, rest))
  }

  /** The body of a braced word is read back exactly when it is balanced. */
  lemma {:induction false} ReadBracedBalanced(w: string, rest: string, depth: nat)
    requires Nests(w, depth, 0)
    ensures ReadBraced(w + "}" + rest, depth) == Some((w, rest))
    decreases |w|
  {
    var s := w + "}" + rest;
    if w == [] {
      assert s == "}" + rest;
      assert s[1..] == rest;
    } else {
      assert s[0] == w[0];
      assert s[1..] == w[1..] + "}" + rest;
      var inner := if w[0] == '{' then depth + 1 else if w[0] == '}' then depth - 1 else depth;
      ReadBracedBalanced(w[1..], rest, inner);
      assert [w[0]] + w[1..] == w;
    }
  }

  /** The length of the bare word at the head of `s`: everything up to the
      next space or `;`. */
  function BareLength(s: string): (n: nat)
    ensures n <= |s|
    ensures forall i :: 0 <= i < n ==> s[i] != ' ' && s[i] != ';'
    ensures n < |s| ==> s[n] == ' ' || s[n] == ';'
    decreases |s|
  {
    if s == [] || s[0] == ' ' || s[0] == ';' then 0 else 1 + BareLength(s[1..])
  }

  /** What may follow a word: the end of the text, a space, or the `;` that
      ends the command. */
  predicate AtWordEnd(s: string) {
    s == [] || s[0] == ' ' || s[0] == ';'
  }

  function Cons(w: string, ws: Option<seq<string>>): Option<seq<string>> {
    match ws
    case None => None
    case Some(tail) => Some([w] + tail)
  }

  function Append(ws: seq<string>, tail: Option<seq<string>>): Option<seq<string>> {
    match tail
    case None => None
    case Some(t) => Some(ws + t)
  }

  /** The words of one command (or of one list value): spaces separate words;
      a word opening with `{` runs to its matching `}`, which must be followed by
      a space, a `;` or the end, and its braces are dropped; any other word runs
      to the next space or `;`; a `;` between words ends the command. None when
      a brace is left open or a close brace is followed by other text. */
  function Words(s: string): Option<seq<string>>
    decreases |s|
  {
    if s == [] then Some([])
    else if s[0] == ' ' then Words(s[1..])
    else if s[0] == ';' then Some([])
    else if s[0] == '{' then
      match ReadBraced(s[1..], 0)
      case None => None
      case Some((w, rest)) =>
        if AtWordEnd(rest) then Cons(w, Words(rest)) else None
    else
      var n := BareLength(s);
      Cons(s[..n], Words(s[n..]))
  }

  lemma WordsSpace(s: string)
    ensures Words(" " + s) == Words(s)
  {
    assert (" " + s)[1..] == s;
  }

  /** A braced word is read back as its body. */
  lemma WordsBraced(w: string, rest: string)
    requires Balanced(w) && AtWordEnd(rest)
    ensures Words("{" + w + "}" + rest) == Cons(w, Words(rest))
  {
    var s := "{" + w + "}" + rest;
    assert s[0] == '{';
    assert s[1..] == w + "}" + rest;
    ReadBracedBalanced(w, rest, 0);
  }

  /** The characters TCL's list reading takes as white space between
      elements: space, tab, newline, carriage return, vertical tab and form
      feed. */
  predicate ListSpace(c: char) {
    c == ' ' || c == '\t' || c == '\n' || c == '\r' || c == '\U{000B}' || c == '\U{000C}'
  }

  /** A word that reads as itself here and in TCL's list reading alike: not
      empty, not opening with a brace or a double quote, and holding no white
      space, no `;` and no backslash. */
  predicate BareWord(w: string) {
    && w != [] && w[0] != '{' && w[0] != '"'
    && forall i :: 0 <= i < |w| ==> !ListSpace(w[i]) && w[i] != ';' && w[i] != '\\'
  }

  /** Text that TCL's list reading splits, unquotes or substitutes is not a
      bare word. */
  lemma NotBare()
    ensures !BareWord("a\tb") && !BareWord("a\nb") && !BareWord("\"a\"") && !BareWord("a\\tb")
    ensures BareWord("a") && BareWord("::pkg::proc")
  {
    assert !ListSpace("a\tb"[0]) && ListSpace("a\tb"[1]);
    assert ListSpace("a\nb"[1]);
    assert "a\\tb"[1] == '\\';
  }

  /** The reader counts every brace, escaped or not: `a\{}` balances,
      although TCL would end a braced word at its `}`, and `a\{` does not,
      although TCL would take it inside braces. */
  lemma BackslashIgnored()
    ensures Balanced("a\\{}") && !Balanced("a\\{")
  {
    assert "a\\{}"[1..] == "\\{}" && "\\{}"[1..] == "{}" && "{}"[1..] == "}" && "}"[1..] == "";
    assert "a\\{"[1..] == "\\{" && "\\{"[1..] == "{" && "{"[1..] == "";
  }

  /** A bare word is read back as itself. */
  lemma WordsBare(w: string, rest: string)
    requires BareWord(w)
    requires AtWordEnd(rest)
    ensures Words(w + rest) == Cons(w, Words(rest))
  {
    var s := w + rest;
    var n := BareLength(s);
    assert forall i :: 0 <= i < |w| ==> s[i] == w[i];
    assert |w| < |s| ==> s[|w|] == rest[0];
    assert n == |w|;
    assert s[..n] == w;
    assert s[n..] == rest;
  }
}

=== FILE: testbench.dfy ===
/** The file side of a file-driven testbench (`FileTestBenchProject`): every
    test has a directory under the project directory holding the input data
    the simulation reads, the previous input data, and one output file per
    simulation type. Updating the input rotates the current input into the
    previous one, writes the new input, and reports whether it changed, so that
    a caller can skip a simulation whose input is unchanged. */
module FileTestBench {
  import opened Wrappers
  import opened Paths

  newtype byte = x: int | 0 <= x < 256
  type Bytes = seq<byte>

  datatype Entry = File(bytes: Bytes) | Dir

  /** The filesystem as a map from paths to what is there. */
  type FileSystem = map<Path, Entry>

  datatype FsError =
    | NoParentDirectory  // `os.mkdir` of the test directory when the project directory is missing
    | IsADirectory       // `os.remove` of an `old_input.data` that is a directory
    | NotADirectory      // writing `input.data` when the test directory is a file

  const InputName := "input.data"
  const OldInputName := "old_input.data"
  const OutputSuffix := "_output.data"

  /** `p` is `prefix` or lies under it. */
  predicate Under(prefix: Path, p: Path) {
    |prefix| <= |p| && p[..|prefix|] == prefix
  }

  /** Every entry more than one component deep sits in a directory. */
  predicate WellFormed(fs: FileSystem) {
    forall p :: p in fs && |p| > 1 ==> p[..|p| - 1] in fs && fs[p[..|p| - 1]].Dir?
  }

  /** `dir` may receive a new entry: it is the top, or a directory. */
  predicate IsDirectory(fs: FileSystem, dir: Path) {
    dir == [] || (dir in fs && fs[dir].Dir?)
  }

  function TestDirectory(directory: Path, testName: string): Path {
    directory + [testName]
  }

  /** `get_input_filename` */
  function GetInputFilename(directory: Path, testName: string): Path {
    TestDirectory(directory, testName) + [InputName]
  }

  function OldInputFilename(directory: Path, testName: string): Path {
    TestDirectory(directory, testName) + [OldInputName]
  }

  /** `get_output_filename` */
  function GetOutputFilename(directory: Path, testName: string, simType: string): Path {
    TestDirectory(directory, testName) + [simType + OutputSuffix]
  }

  /** `os.rename(src, dst)` onto a name that is free: `src` and everything
      under it move under `dst`; what was under `dst` is replaced. */
  function Rename(fs: FileSystem, src: Path, dst: Path): (r: FileSystem)
    requires !Under(src, dst) && !Under(dst, src)
    ensures forall p :: !Under(src, p) && !Under(dst, p) ==> (p in r <==> p in fs)
    ensures forall p :: !Under(src, p) && !Under(dst, p) && p in fs ==> r[p] == fs[p]
    ensures forall p :: Under(src, p) ==> p !in r
    ensures forall p :: p in r && Under(dst, p) ==> src + p[|dst|..] in fs && r[p] == fs[src + p[|dst|..]]
    ensures forall q :: q in fs && Under(src, q) ==> dst + q[|src|..] in r && r[dst + q[|src|..]] == fs[q]
    ensures src in fs ==> dst in r && r[dst] == fs[src]
  {
    var kept := map p | p in fs && !Under(src, p) && !Under(dst, p) :: fs[p];
    var moved := map p | p in MovedKeys(fs, src, dst) :: fs[src + p[|dst|..]];
    assert forall q :: q in fs && Under(src, q) ==> dst + q[|src|..] in moved by {
      forall q | q in fs && Under(src, q) ensures dst + q[|src|..] in moved {
        MovedKey(fs, src, dst, q);
      }
    }
    assert src in fs ==> src[|src|..] == [] && dst + [] == dst && src + [] == src;
    forall q | q in fs && Under(src, q) ensures (dst + q[|src|..])[|dst|..] == q[|src|..] && src + q[|src|..] == q {
    }
    kept + moved
  }

  /** The names the entries under `src` have after the move. */
  function MovedKeys(fs: FileSystem, src: Path, dst: Path): (keys: set<Path>)
    ensures forall p :: p in keys ==> Under(dst, p) && src + p[|dst|..] in fs
  {
    set p | p in RenameTargets(fs, src, dst) && src + p[|dst|..] in fs
  }

  function RenameTargets(fs: FileSystem, src: Path, dst: Path): set<Path> {
    set q | q in fs && Under(src, q) :: dst + q[|src|..]
  }

  lemma MovedKey(fs: FileSystem, src: Path, dst: Path, q: Path)
    requires q in fs && Under(src, q)
    ensures dst + q[|src|..] in MovedKeys(fs, src, dst)
  {
    var p := dst + q[|src|..];
    assert p in RenameTargets(fs, src, dst);
    assert p[|dst|..] == q[|src|..];
    assert src + q[|src|..] == q;
  }

  /** Deleting `previous` and renaming `current` to it, if there is one: the
      previous entry then holds what the current one held, the current name is
      free, and nothing outside the two names changes. */
  function Rotate(fs: FileSystem, current: Path, previous: Path): (r: FileSystem)
    requires !Under(current, previous) && !Under(previous, current)
    ensures previous in r <==> current in fs
    ensures current in fs ==> r[previous] == fs[current]
    ensures current !in r
    ensures forall p :: !Under(current, p) && !Under(previous, p) ==> (p in r <==> p in fs)
    ensures forall p :: !Under(current, p) && !Under(previous, p) && p in fs ==> r[p] == fs[p]
    ensures current !in fs ==> r == fs - {previous}
    ensures current in fs ==> forall p :: Under(current, p) ==> p !in r
    ensures current in fs ==> forall q :: q in fs && Under(current, q) ==> previous + q[|current|..] in r && r[previous + q[|current|..]] == fs[q]
    ensures forall p :: p in r && Under(previous, p) && p != previous && current !in fs ==> p in fs && r[p] == fs[p]
    ensures forall p :: p in r && Under(previous, p) && current in fs ==>
                          current + p[|previous|..] in fs && r[p] == fs[current + p[|previous|..]]
  {
    var removed := fs - {previous};
    if current in removed then Rename(removed, current, previous) else removed
  }

  /** `update_input_data`, with `content` the bytes the interface serialises
      the input data to: create the test directory if it is missing, delete
      `old_input.data`, rename `input.data` to `old_input.data`, write the new
      `input.data`, and say whether it differs from the one it replaced. */
  function UpdateInputData(fs: FileSystem, directory: Path, testName: string, content: Bytes)
    : (r: Result<(FileSystem, bool), FsError>)
    ensures var tdir := TestDirectory(directory, testName);
            var previous := OldInputFilename(directory, testName);
      r.Success? <==> && (if tdir in fs then fs[tdir] == Dir else IsDirectory(fs, directory))
                      && !(previous in fs && fs[previous] == Dir)
    ensures var tdir := TestDirectory(directory, testName);
      tdir !in fs && !IsDirectory(fs, directory) ==> r == Failure(NoParentDirectory)
    ensures var tdir := TestDirectory(directory, testName);
            var previous := OldInputFilename(directory, testName);
      (tdir in fs || IsDirectory(fs, directory)) && previous in fs && fs[previous] == Dir ==> r == Failure(IsADirectory)
    ensures var tdir := TestDirectory(directory, testName);
            var previous := OldInputFilename(directory, testName);
      tdir in fs && fs[tdir].File? && !(previous in fs && fs[previous] == Dir) ==> r == Failure(NotADirectory)
  {
    var tdir := TestDirectory(directory, testName);
    var input := GetInputFilename(directory, testName);
    var previous := OldInputFilename(directory, testName);
    if tdir !in fs && !IsDirectory(fs, directory) then Failure(NoParentDirectory)
    else
      var fs1 := if tdir in fs then fs else fs[tdir := Dir];
      if previous in fs1 && fs1[previous].Dir? then Failure(IsADirectory)
      else
        assert input[|tdir|] != previous[|tdir|];
        var fs3 := Rotate(fs1, input, previous);
        if !fs3[tdir].Dir? then Failure(NotADirectory)
        else
          var fs4 := fs3[input := File(content)];
          var changed := if previous in fs4 then !(fs4[previous].File? && fs4[previous].bytes == content) else true;
          Success((fs4, changed))
  }

  /** After an update, `input.data` holds the new bytes; `old_input.data` holds
      exactly what `input.data` held before, or is gone if there was none; the
      test directory exists; and the result says whether the new bytes differ
      from the prior input — always true when there was no prior input. */
  lemma UpdateContents(fs: FileSystem, directory: Path, testName: string, content: Bytes)
    requires UpdateInputData(fs, directory, testName, content).Success?
    ensures var (after, changed) := UpdateInputData(fs, directory, testName, content).value;
            var input := GetInputFilename(directory, testName);
            var previous := OldInputFilename(directory, testName);
      && input in after && after[input] == File(content)
      && (if input in fs then previous in after && after[previous] == fs[input] else previous !in after)
      && (changed <==> !(input in fs && fs[input] == File(content)))
      && (input !in fs ==> changed)
      && TestDirectory(directory, testName) in after && after[TestDirectory(directory, testName)] == Dir
  {
    var tdir := TestDirectory(directory, testName);
    var input := GetInputFilename(directory, testName);
    var previous := OldInputFilename(directory, testName);
    var fs1 := if tdir in fs then fs else fs[tdir := Dir];
    assert input[|tdir|] != previous[|tdir|];
    assert input in fs1 <==> input in fs;
    assert input in fs ==> fs1[input] == fs[input];
    var fs3 := Rotate(fs1, input, previous);
    assert !Under(input, tdir) && !Under(previous, tdir);
  }

  /** An update touches nothing but the test directory, `input.data` and
      `old_input.data` (and what lies under those two): other tests' files
      are unchanged. */
  lemma UpdateFrame(fs: FileSystem, directory: Path, testName: string, content: Bytes, p: Path)
    requires UpdateInputData(fs, directory, testName, content).Success?
    requires p != TestDirectory(directory, testName)
    requires !Under(GetInputFilename(directory, testName), p) && !Under(OldInputFilename(directory, testName), p)
    ensures var after := UpdateInputData(fs, directory, testName, content).value.0;
      (p in after <==> p in fs) && (p in fs ==> after[p] == fs[p])
  {
    var tdir := TestDirectory(directory, testName);
    var input := GetInputFilename(directory, testName);
    var previous := OldInputFilename(directory, testName);
    assert input[|tdir|] != previous[|tdir|];
    assert p != input by {
      assert Under(input, input);
    }
  }

  /** Writing the same bytes twice: the second update reports no change. */
  lemma SameDataTwiceUnchanged(fs: FileSystem, directory: Path, testName: string, content: Bytes)
    requires UpdateInputData(fs, directory, testName, content).Success?
    requires var input := GetInputFilename(directory, testName); !(input in fs && fs[input] == Dir)
    ensures var after := UpdateInputData(fs, directory, testName, content).value.0;
      && UpdateInputData(after, directory, testName, content).Success?
      && !UpdateInputData(after, directory, testName, content).value.1
  {
    UpdateContents(fs, directory, testName, content);
    var after := UpdateInputData(fs, directory, testName, content).value.0;
    UpdateSucceedsAgain(fs, directory, testName, content);
    UpdateContents(after, directory, testName, content);
  }

  /** Writing different bytes after an update always reports a change. */
  lemma DifferentDataChanged(fs: FileSystem, directory: Path, testName: string, first: Bytes, second: Bytes)
    requires UpdateInputData(fs, directory, testName, first).Success?
    requires var input := GetInputFilename(directory, testName); !(input in fs && fs[input] == Dir)
    requires first != second
    ensures var after := UpdateInputData(fs, directory, testName, first).value.0;
      && UpdateInputData(after, directory, testName, second).Success?
      && UpdateInputData(after, directory, testName, second).value.1
  {
    UpdateContents(fs, directory, testName, first);
    var after := UpdateInputData(fs, directory, testName, first).value.0;
    UpdateSucceedsAgain(fs, directory, testName, first);
    UpdateContents(after, directory, testName, second);
  }

  /** After an update whose prior input was not a directory, a second update
      of the same test succeeds. */
  lemma UpdateSucceedsAgain(fs: FileSystem, directory: Path, testName: string, content: Bytes)
    requires UpdateInputData(fs, directory, testName, content).Success?
    requires var input := GetInputFilename(directory, testName); !(input in fs && fs[input] == Dir)
    ensures forall next :: UpdateInputData(UpdateInputData(fs, directory, testName, content).value.0,
                                           directory, testName, next).Success?
  {
    UpdateContents(fs, directory, testName, content);
  }

  /** In a well-formed filesystem every proper ancestor of an entry is a directory. */
  lemma {:induction false} AncestorIsDirectory(fs: FileSystem, a: Path, p: Path)
    requires WellFormed(fs) && p in fs && Under(a, p) && 1 <= |a| < |p|
    ensures a in fs && fs[a] == Dir
    decreases |p|
  {
    var parent := p[..|p| - 1];
    assert parent in fs && fs[parent].Dir?;
    if |parent| > |a| {
      assert parent[..|a|] == p[..|a|];
      AncestorIsDirectory(fs, a, parent);
    } else {
      assert parent == p[..|a|];
    }
  }

  /** What an update does, stage by stage: the test directory made, then the
      rotation, then the new input written. */
  lemma UpdateStages(fs: FileSystem, directory: Path, testName: string, content: Bytes)
    requires UpdateInputData(fs, directory, testName, content).Success?
    ensures var tdir := TestDirectory(directory, testName);
            var fs1 := if tdir in fs then fs else fs[tdir := Dir];
            var input := GetInputFilename(directory, testName);
            var previous := OldInputFilename(directory, testName);
      && !Under(input, previous) && !Under(previous, input)
      && UpdateInputData(fs, directory, testName, content).value.0 == Rotate(fs1, input, previous)[input := File(content)]
  {
    var tdir := TestDirectory(directory, testName);
    var input := GetInputFilename(directory, testName);
    var previous := OldInputFilename(directory, testName);
    assert input[|tdir|] != previous[|tdir|];
  }

  /** A path under `a` has its parent under `a` too, or is `a`. */
  lemma UnderParent(a: Path, p: Path)
    requires |p| >= 1
    ensures Under(a, p[..|p| - 1]) ==> Under(a, p)
  {
    if Under(a, p[..|p| - 1]) {
      assert p[..|a|] == p[..|p| - 1][..|a|];
    }
  }

  /** Making a directory whose parent is a directory keeps the filesystem well formed. */
  lemma MakeDirectoryKeepsWellFormed(fs: FileSystem, dir: Path)
    requires WellFormed(fs) && |dir| >= 1 && dir !in fs && IsDirectory(fs, dir[..|dir| - 1])
    ensures WellFormed(fs[dir := Dir])
  {
  }

  /** Writing a new file into a directory keeps the filesystem well formed. */
  lemma WriteNewFileKeepsWellFormed(fs: FileSystem, file: Path, content: Bytes)
    requires WellFormed(fs) && |file| > 1 && file !in fs
    requires file[..|file| - 1] in fs && fs[file[..|file| - 1]].Dir?
    ensures WellFormed(fs[file := File(content)])
  {
    forall p | p in fs && |p| > 1 ensures p[..|p| - 1] != file {
      if p[..|p| - 1] == file {
        AncestorIsDirectory(fs, file, p);
      }
    }
  }

  /** Two entries of the same directory. */
  predicate Siblings(a: Path, b: Path) {
    |a| == |b| >= 1 && a[..|a| - 1] == b[..|b| - 1] && a != b
  }

  lemma SiblingsApart(a: Path, b: Path)
    requires Siblings(a, b)
    ensures !Under(a, b) && !Under(b, a)
  {
  }

  /** Rotating a file (or a directory) into a sibling name that is not a
      directory keeps the filesystem well formed. */
  lemma RotateKeepsWellFormed(fs: FileSystem, current: Path, previous: Path)
    requires WellFormed(fs) && Siblings(current, previous)
    requires !(previous in fs && fs[previous].Dir?)
    ensures !Under(current, previous) && !Under(previous, current)
    ensures WellFormed(Rotate(fs, current, previous))
  {
    SiblingsApart(current, previous);
    var r := Rotate(fs, current, previous);
    forall p | p in r && |p| > 1 ensures p[..|p| - 1] in r && r[p[..|p| - 1]].Dir? {
      RotatedEntryHasParent(fs, current, previous, p);
    }
  }

  lemma RotatedEntryHasParent(fs: FileSystem, current: Path, previous: Path, p: Path)
    requires WellFormed(fs) && Siblings(current, previous)
    requires !(previous in fs && fs[previous].Dir?)
    requires !Under(current, previous) && !Under(previous, current)
    requires p in Rotate(fs, current, previous) && |p| > 1
    ensures p[..|p| - 1] in Rotate(fs, current, previous) && Rotate(fs, current, previous)[p[..|p| - 1]].Dir?
  {
    if Under(previous, p) {
      if current in fs {
        MovedEntryHasParent(fs, current, previous, p);
      } else {
        AncestorIsDirectory(fs, previous, p);
      }
    } else if Under(current, p) {
      if current !in fs {
        assert p in fs && p != current;
        AncestorIsDirectory(fs, current, p);
      }
    } else {
      KeptEntryHasParent(fs, current, previous, p);
    }
  }

  lemma MovedEntryHasParent(fs: FileSystem, current: Path, previous: Path, p: Path)
    requires WellFormed(fs) && Siblings(current, previous) && current in fs
    requires !Under(current, previous) && !Under(previous, current)
    requires p in Rotate(fs, current, previous) && |p| > 1 && Under(previous, p)
    ensures p[..|p| - 1] in Rotate(fs, current, previous) && Rotate(fs, current, previous)[p[..|p| - 1]].Dir?
  {
    if p == previous {
      MovedTopHasParent(fs, current, previous);
    } else {
      MovedInnerHasParent(fs, current, previous, p);
    }
  }

  lemma MovedTopHasParent(fs: FileSystem, current: Path, previous: Path)
    requires WellFormed(fs) && Siblings(current, previous) && current in fs && |previous| > 1
    requires !Under(current, previous) && !Under(previous, current)
    ensures var parent := previous[..|previous| - 1];
      parent in Rotate(fs, current, previous) && Rotate(fs, current, previous)[parent].Dir?
  {
    var parent := previous[..|previous| - 1];
    assert parent == current[..|current| - 1];
    assert parent in fs && fs[parent].Dir?;
    assert !Under(current, parent) && !Under(previous, parent);
  }

  /** The parent of `previous + rest` and of `current + rest`, for a non-empty `rest`. */
  lemma ParentsCorrespond(current: Path, previous: Path, p: Path)
    requires Under(previous, p) && p != previous
    ensures var source := current + p[|previous|..];
      && |source| > |current| && Under(current, source)
      && Under(current, source[..|source| - 1])
      && previous + source[..|source| - 1][|current|..] == p[..|p| - 1]
  {
    var rest := p[|previous|..];
    var source := current + rest;
    assert p == previous + rest;
    assert source[..|source| - 1] == current + rest[..|rest| - 1];
    assert source[..|source| - 1][|current|..] == rest[..|rest| - 1];
    assert p[..|p| - 1] == previous + rest[..|rest| - 1];
  }

  lemma MovedInnerHasParent(fs: FileSystem, current: Path, previous: Path, p: Path)
    requires WellFormed(fs) && Siblings(current, previous) && current in fs
    requires !Under(current, previous) && !Under(previous, current)
    requires p in Rotate(fs, current, previous) && Under(previous, p) && p != previous
    ensures p[..|p| - 1] in Rotate(fs, current, previous) && Rotate(fs, current, previous)[p[..|p| - 1]].Dir?
  {
    MovedParentIsDirectory(fs, Rotate(fs, current, previous), current, previous, p);
  }

  /** The parent of an entry moved below `previous` is the image of its
      source's parent, a directory of the well-formed `fs`. */
  lemma MovedParentIsDirectory(fs: FileSystem, r: FileSystem, current: Path, previous: Path, p: Path)
    requires WellFormed(fs) && |current| > 0 && p in r && Under(previous, p) && p != previous
    requires forall p :: p in r && Under(previous, p) ==>
               current + p[|previous|..] in fs && r[p] == fs[current + p[|previous|..]]
    requires forall q :: q in fs && Under(current, q) ==>
               previous + q[|current|..] in r && r[previous + q[|current|..]] == fs[q]
    ensures p[..|p| - 1] in r && r[p[..|p| - 1]].Dir?
  {
    var source := current + p[|previous|..];
    assert source in fs;
    ParentsCorrespond(current, previous, p);
    var sourceParent := source[..|source| - 1];
    assert sourceParent in fs && fs[sourceParent].Dir?;
    var image := previous + sourceParent[|current|..];
    assert image in r && r[image] == fs[sourceParent];
    assert image == p[..|p| - 1];
  }

  lemma KeptEntryHasParent(fs: FileSystem, current: Path, previous: Path, p: Path)
    requires WellFormed(fs)
    requires !Under(current, previous) && !Under(previous, current)
    requires p in Rotate(fs, current, previous) && |p| > 1 && !Under(previous, p) && !Under(current, p)
    ensures p[..|p| - 1] in Rotate(fs, current, previous) && Rotate(fs, current, previous)[p[..|p| - 1]].Dir?
  {
    UnderParent(current, p);
    UnderParent(previous, p);
    assert p in fs;
  }

  /** An update keeps the filesystem well formed. */
  lemma UpdateKeepsWellFormed(fs: FileSystem, directory: Path, testName: string, content: Bytes)
    requires WellFormed(fs)
    requires UpdateInputData(fs, directory, testName, content).Success?
    ensures WellFormed(UpdateInputData(fs, directory, testName, content).value.0)
  {
    var tdir := TestDirectory(directory, testName);
    var input := GetInputFilename(directory, testName);
    var previous := OldInputFilename(directory, testName);
    var fs1 := if tdir in fs then fs else fs[tdir := Dir];
    UpdateStages(fs, directory, testName, content);
    if tdir !in fs {
      assert tdir[..|tdir| - 1] == directory;
      MakeDirectoryKeepsWellFormed(fs, tdir);
    }
    assert input[..|input| - 1] == tdir && previous[..|previous| - 1] == tdir;
    RotateKeepsWellFormed(fs1, input, previous);
    var rotated := Rotate(fs1, input, previous);
    assert !Under(input, tdir) && !Under(previous, tdir);
    WriteNewFileKeepsWellFormed(rotated, input, content);
  }

  /** The files of one test are distinct and lie in its directory; different
      tests and different simulation types get different files. */
  lemma FilenamesDistinct(directory: Path, testName: string, otherTest: string, simType: string, otherType: string)
    ensures GetInputFilename(directory, testName) != GetOutputFilename(directory, testName, simType)
    ensures OldInputFilename(directory, testName) != GetOutputFilename(directory, testName, simType)
    ensures GetInputFilename(directory, testName) != OldInputFilename(directory, testName)
    ensures GetOutputFilename(directory, testName, simType) == GetOutputFilename(directory, testName, otherType)
            <==> simType == otherType
    ensures testName != otherTest ==> GetInputFilename(directory, testName) != GetInputFilename(directory, otherTest)
    ensures testName != otherTest ==>
              GetOutputFilename(directory, testName, simType) != GetOutputFilename(directory, otherTest, simType)
    ensures Under(TestDirectory(directory, testName), GetInputFilename(directory, testName))
    ensures Under(TestDirectory(directory, testName), GetOutputFilename(directory, testName, simType))
  {
    var n := |directory| + 1;
    var out := simType + OutputSuffix;
    assert GetInputFilename(directory, testName)[n] == InputName;
    assert OldInputFilename(directory, testName)[n] == OldInputName;
    assert GetOutputFilename(directory, testName, simType)[n] == out;
    assert |out| >= 12 && out[|out| - 12] == '_';
    assert |OldInputName| == 14 && OldInputName[2] == 'd';
    assert out != OldInputName by {
      if |out| == 14 {
        assert out[2] == '_';
      }
    }
    if GetOutputFilename(directory, testName, simType) == GetOutputFilename(directory, testName, otherType) {
      assert out == otherType + OutputSuffix;
      assert simType == out[..|out| - 12];
    }
    assert GetInputFilename(directory, testName)[n - 1] == testName;
    assert GetInputFilename(directory, otherTest)[n - 1] == otherTest;
    assert GetOutputFilename(directory, otherTest, simType)[n - 1] == otherTest;
  }

  /** Three updates of a new test with `AAAA`, `BBBB` and `BBBB` report a
      change, a change, and no change. */
  lemma RewriteScenario()
    ensures var fs := map[["project"] := Dir];
            var a: Bytes := [65, 65, 65, 65];
            var b: Bytes := [66, 66, 66, 66];
      && UpdateInputData(fs, ["project"], "test", a).Success?
      && UpdateInputData(fs, ["project"], "test", a).value.1
      && var fs1 := UpdateInputData(fs, ["project"], "test", a).value.0;
         && UpdateInputData(fs1, ["project"], "test", b).Success?
         && UpdateInputData(fs1, ["project"], "test", b).value.1
         && var fs2 := UpdateInputData(fs1, ["project"], "test", b).value.0;
            && UpdateInputData(fs2, ["project"], "test", b).Success?
            && !UpdateInputData(fs2, ["project"], "test", b).value.1
  {
    var fs := map[["project"] := Dir];
    var a: Bytes := [65, 65, 65, 65];
    var b: Bytes := [66, 66, 66, 66];
    var input := GetInputFilename(["project"], "test");
    var previous := OldInputFilename(["project"], "test");
    assert input !in fs && previous !in fs;
    assert UpdateInputData(fs, ["project"], "test", a).Success?;
    UpdateContents(fs, ["project"], "test", a);
    var fs1 := UpdateInputData(fs, ["project"], "test", a).value.0;
    assert a != b by { assert a[0] != b[0]; }
    DifferentDataChanged(fs, ["project"], "test", a, b);
    UpdateContents(fs1, ["project"], "test", b);
    SameDataTwiceUnchanged(fs1, ["project"], "test", b);
  }
}

=== FILE: utilization.dfy ===
/** The hierarchy part of `VivadoProject.get_utilization`: the utilization
    report is a text table whose rows are indented by their depth in the
    design hierarchy; the rows after the `Instance` header are rebuilt into a
    tree with a stack of the currently open ancestors. */
module Utilization {
  import opened Wrappers

  // ---------------------------------------------------------------------------
  // Text: splitting on `|` and stripping white space

  /** Python's `str.isspace` for one character. */
  predicate IsSpace(c: char) {
    || c == ' '
    || ('\t' <= c <= '\r')
    || ('\U{1C}' <= c <= '\U{1F}')
    || c == '\U{85}' || c == '\U{A0}' || c == '\U{1680}'
    || ('\U{2000}' <= c <= '\U{200A}')
    || c == '\U{2028}' || c == '\U{2029}' || c == '\U{202F}' || c == '\U{205F}' || c == '\U{3000}'
  }

  /** The number of white-space characters `s` starts with. */
  function LeadingSpaces(s: string): (n: nat)
    ensures n <= |s|
    ensures forall i :: 0 <= i < n ==> IsSpace(s[i])
    ensures n < |s| ==> !IsSpace(s[n])
    decreases |s|
  {
    if s == [] || !IsSpace(s[0]) then 0 else 1 + LeadingSpaces(s[1..])
  }

  /** The number of white-space characters `s` ends with. */
  function TrailingSpaces(s: string): (n: nat)
    ensures n <= |s|
    ensures forall i :: |s| - n <= i < |s| ==> IsSpace(s[i])
    ensures n < |s| ==> !IsSpace(s[|s| - n - 1])
    decreases |s|
  {
    if s == [] || !IsSpace(s[|s| - 1]) then 0 else 1 + TrailingSpaces(s[..|s| - 1])
  }

  /** `s.lstrip()` */
  function LStrip(s: string): string {
    s[LeadingSpaces(s)..]
  }

  /** `s.rstrip()` */
  function RStrip(s: string): string {
    s[..|s| - TrailingSpaces(s)]
  }

  /** `s.strip()` */
  function Strip(s: string): string {
    RStrip(LStrip(s))
  }

  /** `s.split(sep)` for a one-character separator. */
  function Split(s: string, sep: char): (parts: seq<string>)
    ensures |parts| >= 1
    ensures forall i :: 0 <= i < |parts| ==> sep !in parts[i]
    ensures Join(parts, sep) == s
    decreases |s|
  {
    if s == [] then [""]
    else
      var rest := Split(s[1..], sep);
      if s[0] == sep then
        assert Join([""] + rest, sep) == "" + [sep] + Join(rest, sep);
        [""] + rest
      else
        var parts := [[s[0]] + rest[0]] + rest[1..];
        assert parts[1..] == rest[1..];
        assert [s[0]] + Join(rest, sep) == s;
        parts
  }

  /** `sep.join(parts)` */
  function Join(parts: seq<string>, sep: char): string
    requires |parts| >= 1
    decreases |parts|
  {
    if |parts| == 1 then parts[0] else parts[0] + [sep] + Join(parts[1..], sep)
  }

  /** Splitting undoes joining pieces that do not hold the separator. */
  lemma {:induction false} SplitJoin(parts: seq<string>, sep: char)
    requires |parts| >= 1
    requires forall i :: 0 <= i < |parts| ==> sep !in parts[i]
    ensures Split(Join(parts, sep), sep) == parts
    decreases |parts|, |parts[0]|
  {
    var s := Join(parts, sep);
    if parts[0] == [] {
      if |parts| == 1 {
      } else {
        assert s == [sep] + Join(parts[1..], sep);
        assert s[1..] == Join(parts[1..], sep);
        SplitJoin(parts[1..], sep);
        assert [""] + parts[1..] == parts;
      }
    } else {
      var head := parts[0];
      assert head[0] in head;
      var shorter := [head[1..]] + parts[1..];
      assert forall i :: 1 <= i < |shorter| ==> shorter[i] == parts[i];
      assert forall c :: c in head[1..] ==> c in head;
      assert shorter[1..] == parts[1..];
      assert s == [head[0]] + Join(shorter, sep) by {
        if |parts| == 1 {
          assert head == [head[0]] + head[1..];
        } else {
          assert head == [head[0]] + head[1..];
          assert Join(shorter, sep) == head[1..] + [sep] + Join(parts[1..], sep);
        }
      }
      assert s[1..] == Join(shorter, sep);
      SplitJoin(shorter, sep);
      assert s[0] == head[0] && head[0] != sep;
      assert [head[0]] + head[1..] == head;
      assert [[head[0]] + head[1..]] + parts[1..] == parts;
    }
  }

  // ---------------------------------------------------------------------------
  // Report rows

  /** One row of the hierarchy table, already split into its cells. */
  datatype Row = Row(level: int, instance: string, moduleName: string)

  /** The depth of a row from the indentation of its instance cell: one space
      after the `|`, then two per level; `//` is Python's floor division, so an
      unindented cell is at level -1. */
  function HierLevel(cell: string): (level: int)
    ensures 2 * level + 1 <= LeadingSpaces(cell) <= 2 * level + 2
  {
    (|cell| - |LStrip(cell)| - 1) / 2
  }

  /** The header row of the hierarchy table: its second cell is `Instance`. */
  predicate IsHeader(line: string) {
    var bits := Split(line, '|');
    |bits| > 1 && Strip(bits[1]) == "Instance"
  }

  /** A line after the header with at least three cells is a row. */
  function DataRow(line: string): Option<Row> {
    var bits := Split(line, '|');
    if |bits| > 2 then Some(Row(HierLevel(bits[1]), Strip(bits[1]), Strip(bits[2]))) else None
  }

  /** The rows among `lines`, all of which follow the header. */
  function RowsOf(lines: seq<string>): (rows: seq<Row>)
    ensures |rows| <= |lines|
    decreases |lines|
  {
    if lines == [] then []
    else
      match DataRow(lines[0])
      case Some(row) => [row] + RowsOf(lines[1..])
      case None => RowsOf(lines[1..])
  }

  /** The rows of a report: nothing before the first header line counts, and
      every line after it with enough cells is a row. */
  function ReportRows(lines: seq<string>): seq<Row>
    decreases |lines|
  {
    if lines == [] then []
    else if IsHeader(lines[0]) then RowsOf(lines[1..])
    else ReportRows(lines[1..])
  }

  /** Lines before the header do not affect the rows read. */
  lemma {:induction false} NothingBeforeHeader(prefix: seq<string>, header: string, rest: seq<string>)
    requires forall i :: 0 <= i < |prefix| ==> !IsHeader(prefix[i])
    requires IsHeader(header)
    ensures ReportRows(prefix + [header] + rest) == RowsOf(rest)
    decreases |prefix|
  {
    var lines := prefix + [header] + rest;
    if prefix == [] {
      assert lines[0] == header && lines[1..] == rest;
    } else {
      assert lines[0] == prefix[0];
      assert lines[1..] == prefix[1..] + [header] + rest;
      NothingBeforeHeader(prefix[1..], header, rest);
    }
  }

  /** A report without a header has no rows. */
  lemma {:induction false} NoHeaderNoRows(lines: seq<string>)
    requires forall i :: 0 <= i < |lines| ==> !IsHeader(lines[i])
    ensures ReportRows(lines) == []
    decreases |lines|
  {
    if lines != [] {
      NoHeaderNoRows(lines[1..]);
    }
  }

  // ---------------------------------------------------------------------------
  // The hierarchy tree and its preorder

  /** A node of the hierarchy: an instance, its module, its children in order. */
  datatype Tree = Node(instance: string, moduleName: string, children: seq<Tree>)

  /** The rows of `t` in preorder, `t` itself at `depth`. */
  function Flat(t: Tree, depth: int): seq<Row>
    decreases t, 1
  {
    [Row(depth, t.instance, t.moduleName)] + FlatForest(t.children, depth)
  }

  /** The rows of the trees of `ts` in order, each a child at `depth + 1`. */
  function FlatForest(ts: seq<Tree>, depth: int): seq<Row>
    decreases ts, 0
  {
    if ts == [] then [] else FlatForest(ts[..|ts| - 1], depth) + Flat(ts[|ts| - 1], depth + 1)
  }

  /** Rows as a well-formed outline: the first at level 0 and every later one
      between level 1 and one deeper than the row before it. */
  predicate Nested(rows: seq<Row>) {
    && rows != []
    && rows[0].level == 0
    && forall i :: 1 <= i < |rows| ==> 1 <= rows[i].level <= rows[i - 1].level + 1
  }

  /** Rows of a subtree rooted at `depth`: the first at `depth`, every later one
      deeper than `depth` and at most one deeper than the row before it. */
  predicate OutlineFrom(rows: seq<Row>, depth: int) {
    && rows != []
    && rows[0].level == depth
    && (forall i :: 1 <= i < |rows| ==> depth + 1 <= rows[i].level)
    && (forall i :: 1 <= i < |rows| ==> rows[i].level <= rows[i - 1].level + 1)
  }

  /** Rows of the children of a node at `depth`: all deeper than `depth`, the
      first exactly one deeper, each at most one deeper than the one before. */
  predicate ForestFrom(rows: seq<Row>, depth: int) {
    rows != [] ==>
      && rows[0].level == depth + 1
      && (forall i :: 0 <= i < |rows| ==> depth + 1 <= rows[i].level)
      && (forall i :: 1 <= i < |rows| ==> rows[i].level <= rows[i - 1].level + 1)
  }

  lemma {:induction false} FlatOutline(t: Tree, depth: int)
    ensures OutlineFrom(Flat(t, depth), depth)
    decreases t, 1
  {
    ForestOutline(t.children, depth);
    var rows := Flat(t, depth);
    var kids := FlatForest(t.children, depth);
    assert forall i :: 1 <= i < |rows| ==> rows[i] == kids[i - 1];
  }

  lemma {:induction false} ForestOutline(ts: seq<Tree>, depth: int)
    ensures ForestFrom(FlatForest(ts, depth), depth)
    decreases ts, 0
  {
    if ts != [] {
      var front := FlatForest(ts[..|ts| - 1], depth);
      var last := Flat(ts[|ts| - 1], depth + 1);
      ForestOutline(ts[..|ts| - 1], depth);
      FlatOutline(ts[|ts| - 1], depth + 1);
      var rows := front + last;
      assert forall i :: |front| <= i < |rows| ==> rows[i] == last[i - |front|];
      assert forall i :: 0 <= i < |front| ==> rows[i] == front[i];
    }
  }

  /** The preorder of any hierarchy is an outline, so the row loop rebuilds a
      tree with exactly that preorder from it. */
  lemma FlatIsNested(t: Tree)
    ensures Nested(Flat(t, 0))
  {
    FlatOutline(t, 0);
  }

  // ---------------------------------------------------------------------------
  // The ancestor stack

  /** A stack entry: a row whose later children are still to come, with the
      children already complete. The child in progress is the next entry. */
  datatype Frame = Frame(instance: string, moduleName: string, done: seq<Tree>)

  function NewFrame(row: Row): Frame {
    Frame(row.instance, row.moduleName, [])
  }

  function Close(f: Frame): Tree {
    Node(f.instance, f.moduleName, f.done)
  }

  /** Completes the top entry as the last child of the one below it. */
  function Pop(s: seq<Frame>): (r: seq<Frame>)
    requires |s| >= 2
    ensures |r| == |s| - 1
    ensures r[0].instance == s[0].instance && r[0].moduleName == s[0].moduleName
  {
    var n := |s|;
    s[..n - 2] + [s[n - 2].(done := s[n - 2].done + [Close(s[n - 1])])]
  }

  /** `parents[:k]` with the dropped entries completed into their parents. */
  function Truncate(s: seq<Frame>, k: nat): (r: seq<Frame>)
    requires 1 <= k <= |s|
    ensures |r| == k
    ensures r[0].instance == s[0].instance && r[0].moduleName == s[0].moduleName
    decreases |s|
  {
    if |s| == k then s else Truncate(Pop(s), k)
  }

  /** The root with every open entry completed. */
  function CloseAll(s: seq<Frame>): (t: Tree)
    requires |s| >= 1
    ensures t.instance == s[0].instance && t.moduleName == s[0].moduleName
    decreases |s|
  {
    if |s| == 1 then Close(s[0]) else CloseAll(Pop(s))
  }

  /** The rows the stack stands for, in preorder, its first entry at `depth`. */
  function FlatStack(s: seq<Frame>, depth: int): seq<Row>
    decreases |s|
  {
    if s == [] then []
    else [Row(depth, s[0].instance, s[0].moduleName)] + FlatForest(s[0].done, depth) + FlatStack(s[1..], depth + 1)
  }

  lemma {:induction false} FlatStackPop(s: seq<Frame>, depth: int)
    requires |s| >= 2
    ensures FlatStack(Pop(s), depth) == FlatStack(s, depth)
    decreases |s|
  {
    var n := |s|;
    if n == 2 {
      var f := s[0].(done := s[0].done + [Close(s[1])]);
      assert Pop(s) == [f];
      assert f.done[..|f.done| - 1] == s[0].done;
      assert FlatForest(f.done, depth) == FlatForest(s[0].done, depth) + Flat(Close(s[1]), depth + 1);
      assert s[1..][1..] == [];
      assert FlatStack(s[1..], depth + 1) == Flat(Close(s[1]), depth + 1);
      assert FlatStack([f], depth) == [Row(depth, f.instance, f.moduleName)] + FlatForest(f.done, depth);
    } else {
      assert Pop(s)[0] == s[0];
      assert Pop(s)[1..] == Pop(s[1..]);
      FlatStackPop(s[1..], depth + 1);
    }
  }

  lemma {:induction false} FlatTruncate(s: seq<Frame>, k: nat, depth: int)
    requires 1 <= k <= |s|
    ensures FlatStack(Truncate(s, k), depth) == FlatStack(s, depth)
    decreases |s|
  {
    if |s| != k {
      FlatStackPop(s, depth);
      FlatTruncate(Pop(s), k, depth);
    }
  }

  lemma {:induction false} FlatCloseAll(s: seq<Frame>, depth: int)
    requires |s| >= 1
    ensures Flat(CloseAll(s), depth) == FlatStack(s, depth)
    decreases |s|
  {
    if |s| == 1 {
      assert s[1..] == [];
    } else {
      FlatStackPop(s, depth);
      FlatCloseAll(Pop(s), depth);
    }
  }

  lemma {:induction false} FlatStackPush(s: seq<Frame>, row: Row, depth: int)
    ensures FlatStack(s + [NewFrame(row)], depth) == FlatStack(s, depth) + [Row(depth + |s|, row.instance, row.moduleName)]
    decreases |s|
  {
    if s == [] {
      assert [NewFrame(row)][1..] == [];
    } else {
      assert (s + [NewFrame(row)])[0] == s[0];
      assert (s + [NewFrame(row)])[1..] == s[1..] + [NewFrame(row)];
      FlatStackPush(s[1..], row, depth + 1);
    }
  }

  datatype BuildError =
    | NoRows               // `parents[0]` of an empty stack
    | FirstRowNotRoot      // the `assert(hier_level == 0)` on the first row
    | LevelOutOfRange(index: nat)  // `parents[hier_level-1]` outside the stack

  /** One row of the loop: the first row starts the stack and must be at level
      0; a later row at level 0 starts a new stack (its parent is the deepest
      open entry, which the returned root no longer reaches); a row at level
      `k` becomes the next child of entry `k-1`, the stack cut to `k` entries
      plus the row. A negative `k` indexes from the top of the stack, as
      Python's negative list indices do. */
  function Step(stack: seq<Frame>, row: Row, index: nat): (r: Result<seq<Frame>, BuildError>)
    ensures r.Success? ==> |r.value| >= 1
    ensures stack == [] ==> (r.Success? <==> row.level == 0)
    ensures stack != [] && row.level == 0 ==> r == Success([NewFrame(row)])
    ensures stack != [] && 1 <= row.level <= |stack| ==> r == Success(Truncate(stack, row.level) + [NewFrame(row)])
    ensures stack != [] && row.level > |stack| ==> r == Failure(LevelOutOfRange(index))
    ensures stack != [] && row.level != 0 && r.Success? ==>
      r.value[0].instance == stack[0].instance && r.value[0].moduleName == stack[0].moduleName
  {
    if stack == [] then
      if row.level == 0 then Success([NewFrame(row)]) else Failure(FirstRowNotRoot)
    else if row.level == 0 then Success([NewFrame(row)])
    else
      var n := |stack|;
      var k := if row.level > 0 then row.level else n + row.level;
      if k < 1 || k > n then Failure(LevelOutOfRange(index))
      else Success(Truncate(stack, k) + [NewFrame(row)])
  }

  /** The index of the last row at level 0. */
  function LastRoot(rows: seq<Row>): (j: nat)
    requires rows != [] && rows[0].level == 0
    ensures j < |rows| && rows[j].level == 0
    ensures forall i :: j < i < |rows| ==> rows[i].level != 0
    decreases |rows|
  {
    if rows[|rows| - 1].level == 0 then |rows| - 1 else LastRoot(rows[..|rows| - 1])
  }

  lemma NestedPrefix(rows: seq<Row>, j: nat, m: nat)
    requires 1 <= j <= m <= |rows| && Nested(rows[..m])
    ensures Nested(rows[..j])
  {
    assert forall i :: 0 <= i < j ==> rows[..j][i] == rows[..m][i];
  }

  /** On an outline, one more row keeps the stack standing for the rows read,
      its height one more than the last row's level. */
  lemma StepOutline(stack: seq<Frame>, rows: seq<Row>, i: nat)
    requires 1 <= i < |rows| && Nested(rows[..i + 1])
    requires FlatStack(stack, 0) == rows[..i] && |stack| == rows[i - 1].level + 1
    ensures Step(stack, rows[i], i).Success?
    ensures FlatStack(Step(stack, rows[i], i).value, 0) == rows[..i + 1]
    ensures |Step(stack, rows[i], i).value| == rows[i].level + 1
  {
    var k := rows[i].level;
    assert rows[..i + 1][i] == rows[i] && rows[..i + 1][i - 1] == rows[i - 1];
    assert 1 <= k <= |stack|;
    FlatTruncate(stack, k, 0);
    FlatStackPush(Truncate(stack, k), rows[i], 0);
    assert rows[..i + 1] == rows[..i] + [rows[i]];
  }

  lemma LastRootStep(rows: seq<Row>, i: nat)
    requires 0 < i < |rows| && rows[0].level == 0
    ensures LastRoot(rows[..i + 1]) == if rows[i].level == 0 then i else LastRoot(rows[..i])
  {
    assert rows[..i + 1][..i] == rows[..i];
  }

  /** What the row loop keeps after reading `rows[..i]`: the stack is empty
      only before the first row; the first row is a root; on an outline the
      stack stands for the rows read and is one entry deeper than the last
      row; no row read so far was too deep after an outline; and the stack's
      bottom entry is the last root read. */
  predicate LoopInvariant(rows: seq<Row>, i: nat, stack: seq<Frame>)
    requires i <= |rows|
  {
    && (i == 0 <==> stack == [])
    && (i > 0 ==> rows[0].level == 0)
    && (i > 0 && Nested(rows[..i]) ==> FlatStack(stack, 0) == rows[..i] && |stack| == rows[i - 1].level + 1)
    && (forall j :: 1 <= j < i && Nested(rows[..j]) ==> rows[j].level <= rows[j - 1].level + 1)
    && (i > 0 ==> (&& stack[0].instance == rows[LastRoot(rows[..i])].instance
                   && stack[0].moduleName == rows[LastRoot(rows[..i])].moduleName))
  }

  /** On an outline every step of the loop succeeds. */
  lemma OutlineStepSucceeds(rows: seq<Row>, i: nat, stack: seq<Frame>)
    requires i < |rows| && LoopInvariant(rows, i, stack) && Nested(rows)
    ensures Step(stack, rows[i], i).Success?
  {
    assert rows[..|rows|] == rows;
    NestedPrefix(rows, i + 1, |rows|);
    if i > 0 {
      NestedPrefix(rows, i, i + 1);
      StepOutline(stack, rows, i);
    } else {
      assert rows[..1][0] == rows[0];
    }
  }

  /** A step that succeeds keeps the loop invariant. */
  lemma StepKeepsInvariant(rows: seq<Row>, i: nat, stack: seq<Frame>)
    requires i < |rows| && LoopInvariant(rows, i, stack) && Step(stack, rows[i], i).Success?
    ensures LoopInvariant(rows, i + 1, Step(stack, rows[i], i).value)
  {
    var next := Step(stack, rows[i], i).value;
    if i == 0 {
      assert [NewFrame(rows[0])][1..] == [];
      assert rows[..1] == [rows[0]];
    } else {
      StepKeepsOutline(rows, i, stack);
      StepKeepsDepthBound(rows, i, stack);
      StepKeepsRoot(rows, i, stack);
    }
  }

  lemma StepKeepsOutline(rows: seq<Row>, i: nat, stack: seq<Frame>)
    requires 0 < i < |rows| && Step(stack, rows[i], i).Success?
    requires Nested(rows[..i]) ==> FlatStack(stack, 0) == rows[..i] && |stack| == rows[i - 1].level + 1
    ensures Nested(rows[..i + 1]) ==>
      && FlatStack(Step(stack, rows[i], i).value, 0) == rows[..i + 1]
      && |Step(stack, rows[i], i).value| == rows[i].level + 1
  {
    if Nested(rows[..i + 1]) {
      NestedPrefix(rows, i, i + 1);
      StepOutline(stack, rows, i);
    }
  }

  lemma StepKeepsDepthBound(rows: seq<Row>, i: nat, stack: seq<Frame>)
    requires 0 < i < |rows| && stack != [] && Step(stack, rows[i], i).Success?
    requires Nested(rows[..i]) ==> |stack| == rows[i - 1].level + 1
    requires forall j :: 1 <= j < i && Nested(rows[..j]) ==> rows[j].level <= rows[j - 1].level + 1
    ensures forall j :: 1 <= j < i + 1 && Nested(rows[..j]) ==> rows[j].level <= rows[j - 1].level + 1
  {
  }

  lemma StepKeepsRoot(rows: seq<Row>, i: nat, stack: seq<Frame>)
    requires 0 < i < |rows| && rows[0].level == 0 && stack != [] && Step(stack, rows[i], i).Success?
    requires stack[0].instance == rows[LastRoot(rows[..i])].instance
    requires stack[0].moduleName == rows[LastRoot(rows[..i])].moduleName
    ensures Step(stack, rows[i], i).value[0].instance == rows[LastRoot(rows[..i + 1])].instance
    ensures Step(stack, rows[i], i).value[0].moduleName == rows[LastRoot(rows[..i + 1])].moduleName
  {
    LastRootStep(rows, i);
  }

  /** The row loop of `get_utilization`. On an outline it succeeds with the
      tree whose preorder is exactly the rows; it fails on no rows, on a first
      row not at level 0, and at the first row deeper than one below its
      predecessor; when it succeeds the root is the last row at level 0. */
  method BuildHierarchy(rows: seq<Row>) returns (r: Result<Tree, BuildError>)
    ensures rows == [] ==> r == Failure(NoRows)
    ensures rows != [] && rows[0].level != 0 ==> r == Failure(FirstRowNotRoot)
    ensures Nested(rows) ==> r.Success? && Flat(r.value, 0) == rows
    ensures forall i :: 1 <= i < |rows| && Nested(rows[..i]) && rows[i].level > rows[i - 1].level + 1 ==> r.Failure?
    ensures r.Success? ==> (&& rows != [] && rows[0].level == 0
                            && r.value.instance == rows[LastRoot(rows)].instance
                            && r.value.moduleName == rows[LastRoot(rows)].moduleName)
  {
    var stack: seq<Frame> := [];
    for i := 0 to |rows|
      invariant LoopInvariant(rows, i, stack)
    {
      var next := Step(stack, rows[i], i);
      if Nested(rows) {
        OutlineStepSucceeds(rows, i, stack);
      }
      if next.Failure? {
        return Failure(next.error);
      }
      StepKeepsInvariant(rows, i, stack);
      stack := next.value;
    }
    assert rows[..|rows|] == rows;
    if stack == [] {
      return Failure(NoRows);
    }
    FlatCloseAll(stack, 0);
    return Success(CloseAll(stack));
  }

  /** `get_utilization` once the report is read: the rows after the header
      rebuilt into the hierarchy. */
  method GetUtilization(lines: seq<string>) returns (r: Result<Tree, BuildError>)
    ensures (forall i :: 0 <= i < |lines| ==> !IsHeader(lines[i])) ==> r == Failure(NoRows)
    ensures Nested(ReportRows(lines)) ==> r.Success? && Flat(r.value, 0) == ReportRows(lines)
  {
    if forall i :: 0 <= i < |lines| ==> !IsHeader(lines[i]) {
      NoHeaderNoRows(lines);
    }
    r := BuildHierarchy(ReportRows(lines));
  }
}

=== FILE: wrappers.dfy ===
/** Option and Result: the model's stand-ins for Python's `None` and for
    operations that raise. */
module Wrappers {

  datatype Option<+T> = None | Some(value: T) {

    /** The value held, or `default` when there is none (Python's `x if x is not None else default`). */
    function GetOr(default: T): T {
      match this
      case Some(v) => v
      case None => default
    }
  }

  /** Success carries the value an operation returns; Failure the exception it raises. */
  datatype Result<+R, +E> = Success(value: R) | Failure(error: E)
}
